=== FILE: README.md ===
# Heads-up No-Limit Hold'em game logic, modelled in Dafny

This project models the game core of `Programs/utils.py` in the nfsp-poker repository. That
file holds the two-player No-Limit Texas Hold'em rules that a neural fictitious self-play
agent trains against. The model covers:

- cards and the 52-card deck;
- wagering actions and the bet-bucket table;
- the betting-round termination test (`agreement`);
- players, the all-in freeze rule and the blinds;
- dealing cards by betting round;
- pot splitting;
- the three tensor encoders that feed the agent;
- straight detection and hand evaluation;
- the showdown comparison `compare_hands`.

Each Python function becomes a pure Dafny function over immutable datatypes. Player, deck
and board state is threaded through as values. A Python exception becomes an `Err` of
`Errors.Result`, naming the exception the code would raise (`KeyError`, `IndexError`,
`ValueError`, `AssertionError`, `TypeError`).

Modules, in dependency order:

- `Errors`: the `Result`/`Option` wrappers and the exception names.
- `Seqs`: the Python built-ins the code relies on:
  - `Counter` counts and key order;
  - `list.sort(reverse=True)`;
  - `sum`;
  - slicing.
- `Cards`: `Card`, its `value`, and `Deck.populate`.
- `Actions`:
  - the seven action kinds and the `Action` constructor;
  - the `BET_BUCKETS` table;
  - the action log, one `RoundLog` per betting round with one list per seat;
  - `agreement`.
- `Players`: `Player`, `cash`, `play` with its all-in freeze, and `blinds`.
- `Dealing`: `deal`, and the card-conservation invariant over a whole hand.
- `Encoding`: `cards_to_array`, `action_to_array` and `actions_to_array`, with integer grids in place of numpy arrays.
- `Pot`: `split_pot`.
- `Straights`: `is_straight`.
- `Evaluator`: `names`/`cn` and `evaluate_hand`, including every quirk of its branch order.
- `Compare`:
  - Python's tuple ordering of the four-tuple that `evaluate_hand` returns;
  - `compare_hands`;
  - a corrected strength-first comparison.

Four behaviours of the code are easy to misread, and the model keeps each as written:

- **Blinds.** `blinds` charges the dealer the small blind, while `split_pot` and `Player.play` treat the dealer as the big blind.
- **The wheel.** `is_straight` only looks for runs starting at values 10 down to 1, so the ace-low straight A-2-3-4-5 is never found.
- **Class order.** `evaluate_hand` tests pair, two pair, trips and straight before flush, full house and quads, so a pair hides a flush and a full house with a second pair reads as two pair.
- **Showdown order.** `compare_hands` compares the whole returned tuple, so the label string decides before the hand value.

## Model

| member | source | states |
|---|---|---|
| Cards.Value | Programs/utils.py:33-35 | a card's value is its 1-based rank position, 1 (deuce) to 13 (ace), and names the same RANKS entry as the card's rank |
| Cards.ValueIdentifiesRank | Programs/utils.py:33-35 | two cards have the same value exactly when they have the same rank |
| Cards.Populate | Programs/utils.py:46-48 | populate yields 52 cards in rank-major order, card i being rank i/4 and suit i%4, with no two equal |
| Cards.PopulateHasEveryCard | Programs/utils.py:46-48 | every rank x suit card is in the fresh deck, at index 4*rank+suit |
| Cards.PopulateCountsOne | Programs/utils.py:46-48 | the fresh deck holds each card exactly once |
| Actions.NewAction | Programs/utils.py:118-121 | the constructor succeeds exactly for the seven type strings, keeping type and amount; any other type is an AssertionError |
| Actions.ParseKindName | Programs/utils.py:118-121 | reading back a kind's type string gives the same kind |
| Actions.BucketTable | Programs/utils.py:99-116 | the table has keys -1..14; every amount 0..200 lies in some bucket 0..14; two buckets overlap only at 10, in buckets 5 and 6; nothing outside 0..200 is bucketed |
| Actions.Agreement | Programs/utils.py:127-150 | a round missing from the log is a KeyError; otherwise the round ends exactly when both seats have acted and a last action is a fold, or the two last actions are bet/call, all-in/call or all-in/all-in in either order |
| Actions.AgreementSymmetric | Programs/utils.py:127-150 | swapping the two seats' action lists never changes the verdict |
| Actions.AgreementExamples | Programs/utils.py:134-150 | check/check and raise/call keep the round open, bet/call and a fold close it, and a seat with no action keeps it open |
| Players.DealerSeat | Programs/utils.py:160-161 | the seat picked carries the dealer flag whenever either seat does; if both flags are set seat 0 wins, being read first; with no flag set the code falls back to seat 1 |
| Players.Cash | Programs/utils.py:65-66 | cash sets the stack to the given amount and leaves cards, dealer and all-in flags alone |
| Players.CashIdempotent | Programs/utils.py:65-66 | cashing twice equals cashing the last amount, and cashing the current stack changes nothing |
| Players.PrecedingAllIn | Programs/utils.py:74-75 | the freeze test is true exactly when a seat's last action in the previous round was an all-in; it raises exactly when that round is missing or a list it inspects is empty |
| Players.Play | Programs/utils.py:68-82 | an all-in player, or one after an all-in in the previous round, returns the null action with the player unchanged; otherwise the strategy's action is returned and the stack drops by its amount, with blinds[is_dealer] added back on every preflop action |
| Players.FrozenPlayIgnoresStrategy | Programs/utils.py:69-78 | a frozen player's move does not depend on the strategy at all |
| Players.FreezeLastsOneRound | Programs/utils.py:74-78 | an all-in freezes the next round only; two rounds later the strategy is consulted again |
| Players.DealerPreflopRefund | Programs/utils.py:81 | after blinds, a dealer who bets x preflop ends at its starting stack - x + 10: blinds charged it the small blind 10, and play refunds blinds[1] = 20 |
| Players.PostBlinds | Programs/utils.py:160-167 | the dealer pays BLINDS[0] and the other seat BLINDS[1]; the pot returned is 30 and equals the total the stacks lost; nothing else changes |
| Dealing.Deal | Programs/utils.py:184-217 | dealing a round fails with IndexError exactly when the deck is shorter than the cards that round pops (4/3/1/1, else 0); otherwise the deck loses exactly that many cards from its tail |
| Dealing.DealEffect | Programs/utils.py:191-217 | preflop the dealer gets the 1st and 3rd popped cards and the other seat the 2nd and 4th; the flop appends the three tail cards last-first, and the turn and river one each; stacks and flags never change |
| Dealing.BoardRoundShape | Programs/utils.py:201-217 | flop, turn and river leave both hands alone and only append the popped cards to the board |
| Dealing.DealConserves | Programs/utils.py:184-217 | one deal keeps the multiset of cards in deck, hands and board unchanged |
| Dealing.DealRoundsConserve | Programs/utils.py:184-217 | any sequence of successful deals keeps the multiset of cards in deck, hands and board unchanged |
| Dealing.EveryCardOnce | Programs/utils.py:184-217 | starting from the 52 cards of a full deck, after any successful sequence of deals each card is in play exactly once |
| Dealing.FreshDeckSize | Programs/utils.py:46-48 | a deck holding the populated cards in any order has 52 cards |
| Dealing.FullHandDeal | Programs/utils.py:184-217 | dealing rounds 0-3 from a 52-card deck with empty hands gives 2 hole cards each, a 5-card board and 43 cards left |
| Dealing.DealSizes | Programs/utils.py:191-217 | each round changes the sizes of deck, board and hands by exactly the cards it deals |
| Encoding.CardsToArray | Programs/utils.py:220-265 | one card or more than five is a ValueError; two cards give a 13x4 grid that is 1 exactly at their (rank, suit); 0/3/4/5 cards give a 3x13x4 grid with cards 1-3 on plane 0, card 4 on plane 1 and card 5 on plane 2 |
| Encoding.HoleGridRoundTrip | Programs/utils.py:228-234 | the cards read back from a hole grid are exactly the two hole cards |
| Encoding.BoardGridRoundTrip | Programs/utils.py:253-265 | reading back a five-card board's planes gives the flop, the turn and the river |
| Encoding.ActionToArray | Programs/utils.py:268-289 | the 5-vector is zero outside the kind's slot; check puts 1 in slot 0, and bet/call/raise/all-in put their amount in slots 1-4 |
| Encoding.ActionArrayRoundTrip | Programs/utils.py:268-289 | the vector decodes back to the action for bets, calls, raises and all-ins with nonzero amount and to check for checks; fold and null decode to nothing; at most one slot is nonzero |
| Encoding.RoundToArray | Programs/utils.py:299-304 | a round with more than six actions for a seat raises; otherwise the 6x5x2 tensor holds the k-th action of seat p in column (k, p) and zeros elsewhere |
| Encoding.ActionsToArray | Programs/utils.py:292-305 | the encoding succeeds exactly when every round has at most six actions per seat; it then gives one tensor per round, each encoding that round |
| Pot.SplitPot | Programs/utils.py:308-321 | the dealer's entry is blinds[1] plus everything it put in over all rounds, and the other seat's is blinds[0] plus everything it put in |
| Pot.ContributedIsTotal | Programs/utils.py:317-320 | the round-by-round accumulation equals the start plus the sum of the seat's whole action history |
| Pot.SplitPotExample | Programs/utils.py:314-321 | dealer 1, blinds (10, 20) and action sums 30 and 50 give (40, 70) |
| Pot.BlindConventionsDiffer | Programs/utils.py:165-167 | blinds charges the dealer BLINDS[0], while split_pot credits the dealer BLINDS[1] |
| Straights.IsStraight | Programs/utils.py:356-365 | the result is low+length-1 for the largest low in 10..1 whose whole run lies among the values, or 0 when no such run exists |
| Straights.StraightTopIsValue | Programs/utils.py:356-365 | for card values the straight's top is itself one of the values, so it lies in 0..13 |
| Straights.StraightExamples | Programs/utils.py:356-365 | values 1..5 give 5, 2,4,6,8,10 give 0, and the wheel A-2-3-4-5 gives 0 |
| Evaluator.HasFlush | Programs/utils.py:428-434 | flush is set exactly when some suit occurs exactly five times, so six or seven cards of one suit are no flush |
| Evaluator.FeaturesOf | Programs/utils.py:376-434 | the pair, trip, quad and single lists hold exactly the values occurring 2, 3, 4 and 1 times; trip_l has no repeats, and trip_l and quad_l list their values in order of first appearance among the cards; pair_l, the leftover values and winning_cards are in descending order; winning_cards holds every card of each repeated value and nothing else; straight is is_straight of the sorted values with run length min(5, len(values)); the flush flag is the five-of-a-suit test, flush_score is read from the suit loop, and flush_l is the last suit's values |
| Evaluator.Multiples | Programs/utils.py:383-404 | the values appended to multiples_l[n] are exactly those occurring n times, without repeats, in order of first appearance among the cards |
| Seqs.KeysWithCountOrder | Programs/utils.py:403-405 | walking the keys in order and keeping those with count n keeps them in key order |
| Seqs.DistinctKeyOrder | Programs/utils.py:383-405 | values listed in Counter's key order are listed in order of first appearance in the cards |
| Evaluator.StraightOf | Programs/utils.py:400-401 | straight is is_straight of the values sorted in reverse, with run length min(5, len(values)), and lies in 0..13 |
| Seqs.DistinctInFirstAppearanceOrder | Programs/utils.py:383-384 | Counter's keys come in order of first appearance: each key first occurs later than the key before it |
| Evaluator.LastSuit | Programs/utils.py:428-434 | the suit loop ends on a suit of the hand whose first appearance is the latest of all suits |
| Evaluator.FlushValues | Programs/utils.py:457-462 | flush_l holds, in descending order, exactly the values of the cards of that last suit, as many as that suit has cards |
| Evaluator.ClassOf | Programs/utils.py:436-484 | a pair wins exactly with one pair and no trips, and two pair exactly with two or more pairs; a flush is reported only without pairs or trips, or with one pair and trips; the straight-flush branch is never taken |
| Evaluator.HandValue | Programs/utils.py:436-484 | each class's hand value stays inside its hundred-band (high card 1-13, pair 100-199, ..., quads 700-799), so the hundreds digit is the class rank |
| Evaluator.TooManyOfAValue | Programs/utils.py:403-406 | the multiples loop indexes past multiples_l exactly when some value occurs more than four times |
| Evaluator.EvaluateHand | Programs/utils.py:369-489 | evaluation raises IndexError exactly for fewer than two cards, a value occurring five times or more, or a high-card hand with no single left; otherwise the value lies in the class's band, the raw data holds the values and the first-two-card gap, tie_break is still the int 0 exactly for a straight with no repeated value, and it is the nested list exactly for three pairs with no single card; rep starts with the fixed text of the branch taken ('pair of ', 'two pair -', 'trip ', 'Straight, ', 'Flush, ', 'full house - ', 'four ', 'high card '); raw_data's flush_score is the suit loop's and its straight is is_straight's result |
| Evaluator.LabelHasPrefix | Programs/utils.py:436-483 | every branch's rep begins with that branch's fixed text, whatever card names follow |
| Evaluator.TieBreakShapes | Programs/utils.py:398-426 | the branch's tie_break is the int 0 exactly on the straight branch with winning_cards empty, and nested exactly for three pairs with no single |
| Evaluator.WinningEmptyIff | Programs/utils.py:403-413 | winning_cards ends empty exactly when no value occurs more than once |
| Evaluator.FiveThenOneSuits | Programs/utils.py:428-434 | with suits a, a, a, a, a, b the flush flag is set by a, yet the loop ends on b, which has one card |
| Evaluator.TwoValueStraight | Programs/utils.py:356-365 | the sorted values v + 1, v hold a run of length 2 from v and none from a higher low, so is_straight gives v + 1 |
| Evaluator.ConnectedHoleCardsStraight | Programs/utils.py:400-453 | two cards of values v and v + 1, in either order (v + 1 at most 11), are already a straight: label "Straight, <name of v + 1> high", value 400 + v + 1, tie_break still the int 0; values 5 and 6 give 406 and "Straight, seven high" |
| Evaluator.TwoTripsLabel | Programs/utils.py:446-449 | with values a, a, a, b, b, b, c the hand is trips labelled by a, the value seen first, while its hand value is 300 plus three times the larger of a and b; values 4, 4, 4, 8, 8, 8, 12 give "trip fives " and 324 |
| Evaluator.TripsByFirstAppearance | Programs/utils.py:383-404 | when exactly a and b occur three times and a is seen first, trip_l is [a, b] |
| Evaluator.TopThreeOfTwoTrips | Programs/utils.py:411-413 | a descending winning_cards with three of hi and three of lo starts with the three hi, so its first three sum to 3 * hi |
| Evaluator.FlushReadsLastSuit | Programs/utils.py:428-466 | five cards of one suit then a sixth of another, all values distinct, make a flush labelled and valued by the sixth card alone: value 500 plus that card's value, tie_break that one value |
| Evaluator.CountOfRank | Programs/utils.py:376-383 | a value's count among the cards is the number of cards of that rank, summed over the four suits |
| Evaluator.AtMostFourOfAValue | Programs/utils.py:403-406 | among distinct cards no value occurs more than four times |
| Evaluator.HighCardHasSingles | Programs/utils.py:481-484 | a high-card hand of at most seven values always has a single left for values[0] |
| Evaluator.HoldemHandsEvaluate | Programs/utils.py:369-489 | evaluation never raises on two to seven distinct cards, the hole cards plus any board |
| Evaluator.PocketPair | Programs/utils.py:436-439 | two cards of the same rank are labelled 'pair of <name>s' with value 100 + twice the card value and an empty tie-break |
| Compare.CmpIntsIsLex | Programs/utils.py:492-493 | the list comparison says 'less' exactly when the first list is a proper prefix of the second or is smaller at the first difference |
| Compare.CmpIntsEq | Programs/utils.py:492-493 | two lists compare equal exactly when they are equal |
| Compare.CmpIntsFlip | Programs/utils.py:492-493 | swapping the lists reverses the comparison |
| Compare.CmpEvalFlip | Programs/utils.py:492-493 | swapping two evaluation tuples reverses their comparison and keeps a TypeError a TypeError |
| Compare.CompareEvaluations | Programs/utils.py:492-493 | the verdict is 1 exactly when seat 1's tuple is greater, 0 when it is equal or smaller (ties go to seat 0), and a TypeError exactly when the labels and hand values are equal and the tie-breaks have no order: the int 0 against any list, or a nested list against a non-empty flat list |
| Compare.CompareHands | Programs/utils.py:492-493 | seat 1's hand is evaluated first and its error propagates, then seat 0's; with both evaluated the verdict is the tuple comparison |
| Compare.CompareSelf | Programs/utils.py:492-493 | a hand compared with itself gives 0 |
| Compare.CompareAntisymmetric | Programs/utils.py:492-493 | if seat 1 wins, swapping the seats makes the other seat lose, and a TypeError stays one under the swap |
| Compare.LabelDecides | Programs/utils.py:492-493 | whenever the labels differ they alone decide the verdict, whatever the strengths |
| Compare.DeucesLabelWins | Programs/utils.py:492-493 | a hand labelled 'pair of deuces' beats one labelled 'pair of aces' on either seat, whatever the hand values and tie-breaks |
| Compare.DeucesBeatAces | Programs/utils.py:492-493 | pocket deuces on seat 1 beat pocket aces on seat 0, because 'pair of deuces' sorts after 'pair of aces' |
| Compare.CompareByStrength | Programs/utils.py:492-493 | the corrected comparison: a higher hand value wins, and equal values fall to the tie-break comparison |
| Compare.CompareByStrengthAntisymmetric | Programs/utils.py:492-493 | under the corrected comparison, if seat 1 wins then swapping the seats makes it lose |
| Compare.CompareHandsByStrength | Programs/utils.py:492-493 | corrected: with both hands evaluated, the higher hand class always wins |
| Compare.AcesBeatDeucesByStrength | Programs/utils.py:492-493 | corrected: pocket aces on seat 0 beat pocket deuces on seat 1 |
| Compare.FirstLetterDecides | Programs/utils.py:492-493 | when the second label's first character is greater, seat 1 wins and, with the seats swapped, seat 0 wins, whatever the hand values |
| Compare.LabelLetterDecides | Programs/utils.py:436-493 | across hand classes compare_hands follows the first letter of the branch's label: t > p > h > f > S > F |
| Compare.HighCardBeatsFlush | Programs/utils.py:492-493 | any high-card hand on seat 1 beats any flush on seat 0, because 'h' sorts after 'F' |
| Compare.PairBeatsQuads | Programs/utils.py:492-493 | any one-pair hand on seat 1 beats any four of a kind on seat 0, because 'p' sorts after 'f' |
| Compare.FlushBeatsHighCardByStrength | Programs/utils.py:492-493 | corrected: a flush on seat 0 beats a high-card hand on seat 1 |
| Compare.QuadsBeatPairByStrength | Programs/utils.py:492-493 | corrected: four of a kind on seat 0 beats one pair on seat 1 |

## Left out

- `Deck.shuffle` draws from sklearn's random shuffle. The model deals from an arbitrary deck, and every property about dealing holds for all deck orders.
- `set_dealer` draws from `random.random`. The dealer is a parameter: `Player.isDealer`, or the `dealer` seat of `split_pot`.
- The `strategy` callable in `Player.play` is the external learning agent. It is a function parameter of `Players.Play`.
- Players.Play: the strategy is modelled as a pure function of what it is shown. In the code it receives the player object itself and the action log, and may change them before line 81 debits the stack, for instance by setting `is_all_in`, which nothing in `utils.py` sets. The frame facts of the contract (cards and flags unchanged, stack debited from its value before the call) hold only if the strategy mutates neither.
- Dealing.Deal: on a deck too short for the round the code pops card by card and raises IndexError at the first empty pop, after the cards already popped have gone to the hands or the board. The model returns only the IndexError; it does not model that partial deal.
- `authorized_actions` is an unimplemented stub with no behaviour to model.
- The verbose printing and the `__repr__` methods are output only.
- numpy float arrays are modelled as integer sequences. Amounts are integers throughout.
- `Player.id` is assumed to equal the player's seat index. Each round of the log is assumed to hold a list for both seats; none of the modelled code builds the log.
- The action log is a dict keyed by betting round. The model makes it a sequence, which assumes the keys are exactly 0..n-1, inserted in increasing order. A log with gaps or out-of-order keys, say rounds {0, 2}, cannot be represented: there `agreement` and `play` look a round up by key, and `actions_to_array` emits one tensor per key in insertion order.
- `Card.__init__` stores any rank and suit. The model only has valid ranks and suits (the `Rank` and `Suit` subtypes), so it drops the ValueError that `Card.RANKS.index` raises for an unknown rank in `Card.value` and in `cards_to_array`.
- `actions_to_array` writes past the sixth action. numpy raises IndexError there, and that is all the model records; it does not model which partial arrays numpy may have written first.
- The experiment script `Programs/perf_eval_experiments_no_argparser.py` and the replay-buffer test stubs are not part of this model: they hold orchestration and unfinished tests, not game logic.
- Evaluator.ClassOf: the classification is stated by its observable facts: the exact conditions for pair, two pair and flush, the implications for straight and high card, and the unreachable straight flush. It does not give an if-and-only-if for each of the nine classes.
- Evaluator.HandValue: for the kicker-summing classes only the hundred-band is stated, not the exact sum of `winning_cards`. The exact value is proved for pocket pairs (`Evaluator.PocketPair`).
- Compare.CompareHandsByStrength: across classes the corrected verdict is stated. Within a class it is left to `Compare.CompareByStrength`'s value and tie-break rule. That two hands with the same values and the same flush flag compare equal is not proved, and for six or seven cards it does not hold: which suit's values flush_l reads depends on the order of the suits (`Evaluator.FlushReadsLastSuit`), and the label names whichever trips come first among the values (`Evaluator.TwoTripsLabel`), which matters to compare_hands' tuple comparison, as it compares labels first.

## Findings

| source | as written | input that shows it | evidently intended | confidence | as-written member | corrected member |
|---|---|---|---|---|---|---|
| Programs/utils.py:492-493 | the whole tuple returned by evaluate_hand is compared, so the label string decides before the hand value | seat 0 holds pocket aces (any two aces), seat 1 pocket deuces: 'pair of deuces' > 'pair of aces', so compare_hands returns 1 | compare by hand value and then tie-break, so the aces win and the call returns 0 | not executed | Compare.DeucesBeatAces | Compare.AcesBeatDeucesByStrength |
| Programs/utils.py:492-493 | the label's first letter decides between hand classes, and lower-case letters sort after upper-case | seat 0 holds any flush, seat 1 any high-card hand: 'high card ...' > 'Flush, ...', so compare_hands returns 1 | the flush (hand value 500 and up) wins over the high card (below 100), so the call returns 0 | not executed | Compare.HighCardBeatsFlush | Compare.FlushBeatsHighCardByStrength |
| Programs/utils.py:492-493 | as above | seat 0 holds four of a kind, seat 1 one pair: 'pair of ...' > 'four ...', so compare_hands returns 1 | four of a kind wins, so the call returns 0 | not executed | Compare.PairBeatsQuads | Compare.QuadsBeatPairByStrength |

=== FILE: actions.dfy ===
/** Wagering actions, the bet-bucket table, the per-round action log and the
    round-termination rule (agreement). */
module Actions {
  import opened Errors
  import opened Seqs

  /** The seven action types; Null means "did not act, frozen by an all-in". */
  datatype Kind = Fold | Check | Call | Bet | Raise | AllIn | Null

  /** The type string the game code uses for each kind. */
  function KindName(k: Kind): string {
    match k
    case Fold => "fold"
    case Check => "check"
    case Call => "call"
    case Bet => "bet"
    case Raise => "raise"
    case AllIn => "all in"
    case Null => "null"
  }

  /** The kind a type string names, if it is one of the seven accepted strings. */
  function ParseKind(s: string): (k: Option<Kind>)
    ensures k.Some? ==> KindName(k.value) == s
  {
    if s == "fold" then Some(Fold)
    else if s == "check" then Some(Check)
    else if s == "call" then Some(Call)
    else if s == "bet" then Some(Bet)
    else if s == "raise" then Some(Raise)
    else if s == "all in" then Some(AllIn)
    else if s == "null" then Some(Null)
    else None
  }

  /** Every kind's name parses back to that kind. */
  lemma ParseKindName(k: Kind)
    ensures ParseKind(KindName(k)) == Some(k)
  {
  }

  /** An action: its kind and the chips it commits (amount in the code: `value`). */
  datatype Action = Action(kind: Kind, amount: int)

  /** The Action constructor: the type must be one of the seven strings, otherwise the
      assert fails; the amount defaults to 0 (pass 0 for the default). */
  function NewAction(typ: string, amount: int): (r: Result<Action>)
    ensures r.Ok? <==> typ in {"call", "check", "all in", "fold", "raise", "bet", "null"}
    ensures r.Ok? ==> KindName(r.value.kind) == typ && r.value.amount == amount
    ensures r.Err? ==> r.error == AssertionError
  {
    match ParseKind(typ)
    case Some(k) => Ok(Action(k, amount))
    case None => Err(AssertionError)
  }

  /** Action('null'): what a frozen player returns. */
  const NullAction: Action := Action(Null, 0)

  /** The BET_BUCKETS table: bucket -1 is fold (no range), 0 is check, 14 is all-in.
      None for keys the table does not have. */
  function BucketRange(b: int): Option<Option<(int, int)>> {
    match b
    case -1 => Some(None)
    case 0 => Some(Some((0, 0)))
    case 1 => Some(Some((1, 1)))
    case 2 => Some(Some((2, 2)))
    case 3 => Some(Some((3, 4)))
    case 4 => Some(Some((5, 6)))
    case 5 => Some(Some((7, 10)))
    case 6 => Some(Some((10, 15)))
    case 7 => Some(Some((16, 20)))
    case 8 => Some(Some((21, 25)))
    case 9 => Some(Some((26, 30)))
    case 10 => Some(Some((31, 40)))
    case 11 => Some(Some((41, 60)))
    case 12 => Some(Some((61, 80)))
    case 13 => Some(Some((81, 100)))
    case 14 => Some(Some((101, 200)))
    case _ => None
  }

  /** Amount a lies in the (inclusive) range of bucket b. */
  predicate InBucket(b: int, a: int) {
    BucketRange(b).Some? && BucketRange(b).value.Some?
    && BucketRange(b).value.value.0 <= a <= BucketRange(b).value.value.1
  }

  /** The table has the keys -1..14; every amount in 0..200 lies in some bucket; the
      ranges are in increasing order and meet only at 10, which buckets 5 and 6 share. */
  lemma BucketTable(a: int, b1: int, b2: int)
    ensures BucketRange(b1).Some? <==> -1 <= b1 <= 14
    ensures 0 <= a <= 200 ==> exists b :: 0 <= b <= 14 && InBucket(b, a)
    ensures InBucket(b1, a) && InBucket(b2, a) && b1 < b2 ==> b1 == 5 && b2 == 6 && a == 10
    ensures InBucket(b1, a) ==> 0 <= b1 <= 14 && 0 <= a <= 200
  {
    if 0 <= a <= 200 {
      var b :=
        if a <= 2 then a else if a <= 4 then 3 else if a <= 6 then 4 else if a <= 10 then 5
        else if a <= 15 then 6 else if a <= 20 then 7 else if a <= 25 then 8 else if a <= 30 then 9
        else if a <= 40 then 10 else if a <= 60 then 11 else if a <= 80 then 12 else if a <= 100 then 13
        else 14;
      assert InBucket(b, a);
    }
  }

  /** A seat at the table: player id 0 or 1. */
  type Seat = s: int | 0 <= s <= 1

  /** The actions each seat took in one betting round, oldest first. */
  datatype RoundLog = RoundLog(seat0: seq<Action>, seat1: seq<Action>) {
    function Of(s: Seat): seq<Action> {
      if s == 0 then seat0 else seat1
    }
  }

  /** The action log {betting_round: {player_id: [actions]}}: round r is log[r]; rounds are
      keyed 0..|log|-1 in insertion order and every round has both seat keys. */
  type Log = seq<RoundLog>

  /** The pairs of last actions that close a round when neither folded. */
  const ClosingPairs: set<multiset<Kind>> :=
    {multiset{Bet, Call}, multiset{AllIn, Call}, multiset{AllIn, AllIn}}

  /** agreement: whether the betting round can end now. A round missing from the log is a
      KeyError; a seat with no action yet means no agreement; otherwise the round ends
      exactly when a last action is a fold or the two last actions form a closing pair. */
  function Agreement(log: Log, round: int): (r: Result<bool>)
    ensures r.Err? <==> !(0 <= round < |log|)
    ensures r.Err? ==> r.error == KeyError
    ensures r == Ok(true) <==>
      0 <= round < |log| && |log[round].seat0| > 0 && |log[round].seat1| > 0
      && (Last(log[round].seat0).kind == Fold || Last(log[round].seat1).kind == Fold
          || multiset{Last(log[round].seat0).kind, Last(log[round].seat1).kind} in ClosingPairs)
  {
    if !(0 <= round < |log|) then Err(KeyError)
    else
      var a := log[round].seat0;
      var b := log[round].seat1;
      if |a| == 0 || |b| == 0 then Ok(false)
      else
        var x := Last(a).kind;
        var y := Last(b).kind;
        assert multiset{Call, Bet} == multiset{Bet, Call};
        assert multiset{Call, AllIn} == multiset{AllIn, Call};
        if x == Fold || y == Fold then Ok(true)
        else if (x == Bet && y == Call) || (x == Call && y == Bet) then Ok(true)
        else if (x == AllIn && y == Call) || (x == Call && y == AllIn) then Ok(true)
        else if x == AllIn && y == AllIn then Ok(true)
        else Ok(false)
  }

  /** The log with the two seats' action lists swapped in every round. */
  function SwapSeats(log: Log): (s: Log)
    ensures |s| == |log|
    ensures forall r :: 0 <= r < |log| ==> s[r].seat0 == log[r].seat1 && s[r].seat1 == log[r].seat0
  {
    seq(|log|, r requires 0 <= r < |log| => RoundLog(log[r].seat1, log[r].seat0))
  }

  /** Agreement does not depend on which seat is which. */
  lemma AgreementSymmetric(log: Log, round: int)
    ensures Agreement(SwapSeats(log), round) == Agreement(log, round)
  {
  }

  /** Check/check and raise/call keep a round open; bet/call and a fold close it. */
  lemma AgreementExamples(round: int)
    ensures Agreement([RoundLog([Action(Check, 0)], [Action(Check, 0)])], 0) == Ok(false)
    ensures Agreement([RoundLog([Action(Raise, 40)], [Action(Call, 40)])], 0) == Ok(false)
    ensures Agreement([RoundLog([Action(Bet, 20)], [Action(Call, 20)])], 0) == Ok(true)
    ensures Agreement([RoundLog([Action(Fold, 0)], [Action(Bet, 20)])], 0) == Ok(true)
    ensures Agreement([RoundLog([], [Action(Bet, 20)])], 0) == Ok(false)
  {
    assert multiset{Check, Check} !in ClosingPairs by {
      assert multiset{Check, Check}[Check] == 2;
    }
    assert multiset{Raise, Call} !in ClosingPairs by {
      assert multiset{Raise, Call}[Raise] == 1;
    }
  }
}

=== FILE: cards.dfy ===
/** Cards and the canonical 52-card deck. */
module Cards {

  /** A rank, as its index into RANKS: 0 is the deuce, 12 the ace. */
  type Rank = r: int | 0 <= r < 13

  /** A suit, as its index into SUITS. */
  type Suit = s: int | 0 <= s < 4

  const RANKS: seq<string> := ["2", "3", "4", "5", "6", "7", "8", "9", "10", "J", "Q", "K", "A"]
  const SUITS: seq<string> := ["h", "c", "s", "d"]

  /** A card is a rank and a suit; two cards are equal when both match. */
  datatype Card = Card(rank: Rank, suit: Suit)

  /** The card's value: the 1-based position of its rank, deuce 1 ... ace 13. */
  function Value(c: Card): (v: int)
    ensures 1 <= v <= 13
    ensures RANKS[v - 1] == RANKS[c.rank]
  {
    c.rank + 1
  }

  /** The value of a card identifies its rank. */
  lemma ValueIdentifiesRank(c: Card, d: Card)
    ensures Value(c) == Value(d) <==> c.rank == d.rank
  {
  }

  /** The four cards of one rank, in SUITS order. */
  function RankRow(r: Rank): seq<Card> {
    [Card(r, 0), Card(r, 1), Card(r, 2), Card(r, 3)]
  }

  /** The ranks from r on, each followed by all four suits (the product of RANKS[r..] and SUITS). */
  function PopulateFrom(r: int): (d: seq<Card>)
    requires 0 <= r <= 13
    ensures |d| == 4 * (13 - r)
    ensures forall i :: 0 <= i < |d| ==> d[i] == Card(r + i / 4, i % 4)
    decreases 13 - r
  {
    if r == 13 then [] else RankRow(r) + PopulateFrom(r + 1)
  }

  /** The deck after populate: all rank x suit pairs in rank-major order. */
  function Populate(): (d: seq<Card>)
    ensures |d| == 52
    ensures forall i :: 0 <= i < 52 ==> d[i] == Card(i / 4, i % 4)
    ensures forall i, j :: 0 <= i < j < 52 ==> d[i] != d[j]
  {
    PopulateFrom(0)
  }

  /** Every card is in the populated deck, at position 4 * rank + suit. */
  lemma PopulateHasEveryCard(c: Card)
    ensures 0 <= 4 * c.rank + c.suit < 52 && Populate()[4 * c.rank + c.suit] == c
    ensures c in Populate()
  {
  }

  /** Every card occurs exactly once in the populated deck. */
  lemma PopulateCountsOne(c: Card)
    ensures multiset(Populate())[c] == 1
  {
    var d := Populate();
    var k := 4 * c.rank + c.suit;
    PopulateHasEveryCard(c);
    assert d == d[..k] + [c] + d[k + 1..];
    forall i | 0 <= i < 52 && i != k ensures d[i] != c { }
    assert c !in d[..k];
    assert c !in d[k + 1..];
    calc {
      multiset(d)[c];
      multiset(d[..k])[c] + multiset([c])[c] + multiset(d[k + 1..])[c];
      0 + 1 + 0;
    }
  }
}

=== FILE: compare.dfy ===
/** compare_hands: Python's ordering of the tuples evaluate_hand returns. */
module Compare {
  import opened Errors
  import opened Cards
  import opened Evaluator

  datatype Ord = LT | EQ | GT

  function Flip(o: Ord): Ord {
    match o
    case LT => GT
    case EQ => EQ
    case GT => LT
  }

  function CmpInt(a: int, b: int): (o: Ord)
    ensures o == EQ <==> a == b
    ensures o == LT <==> a < b
  {
    if a < b then LT else if a == b then EQ else GT
  }

  /** Python's list order on lists of ints: the first differing element decides, and a proper
      prefix is smaller. */
  function CmpInts(a: seq<int>, b: seq<int>): Ord {
    if |a| == 0 && |b| == 0 then EQ
    else if |a| == 0 then LT
    else if |b| == 0 then GT
    else if a[0] != b[0] then CmpInt(a[0], b[0])
    else CmpInts(a[1..], b[1..])
  }

  /** Lexicographic order, stated without recursion: a common prefix of length k followed by
      either the end of a, or a smaller element of a at k. */
  ghost predicate LexLess(a: seq<int>, b: seq<int>) {
    exists k :: 0 <= k <= |a| && k <= |b| && a[..k] == b[..k]
                && ((k == |a| && k < |b|) || (k < |a| && k < |b| && a[k] < b[k]))
  }

  lemma {:induction false} CmpIntsEq(a: seq<int>, b: seq<int>)
    ensures CmpInts(a, b) == EQ <==> a == b
    decreases |a|
  {
    if |a| > 0 && |b| > 0 && a[0] == b[0] {
      CmpIntsEq(a[1..], b[1..]);
      if a[1..] == b[1..] {
        assert a == [a[0]] + a[1..] && b == [b[0]] + b[1..];
      }
    }
  }

  lemma {:induction false} CmpIntsFlip(a: seq<int>, b: seq<int>)
    ensures CmpInts(b, a) == Flip(CmpInts(a, b))
    decreases |a|
  {
    if |a| > 0 && |b| > 0 && a[0] == b[0] {
      CmpIntsFlip(a[1..], b[1..]);
    }
  }

  /** CmpInts agrees with the non-recursive lexicographic order, in both directions. */
  lemma {:induction false} CmpIntsIsLex(a: seq<int>, b: seq<int>)
    ensures CmpInts(a, b) == LT <==> LexLess(a, b)
    decreases |a|
  {
    if |a| == 0 {
      if |b| > 0 { assert a[..0] == b[..0]; }
    } else if |b| == 0 {
    } else if a[0] != b[0] {
      if a[0] < b[0] { assert a[..0] == b[..0]; }
      if LexLess(a, b) {
        var k :| 0 <= k <= |a| && k <= |b| && a[..k] == b[..k]
                 && ((k == |a| && k < |b|) || (k < |a| && k < |b| && a[k] < b[k]));
      }
    } else {
      var a', b' := a[1..], b[1..];
      CmpIntsIsLex(a', b');
      if LexLess(a', b') {
        var k :| 0 <= k <= |a'| && k <= |b'| && a'[..k] == b'[..k]
                 && ((k == |a'| && k < |b'|) || (k < |a'| && k < |b'| && a'[k] < b'[k]));
        assert a[..k + 1] == [a[0]] + a'[..k];
        assert b[..k + 1] == [b[0]] + b'[..k];
      }
      if LexLess(a, b) {
        var k :| 0 <= k <= |a| && k <= |b| && a[..k] == b[..k]
                 && ((k == |a| && k < |b|) || (k < |a| && k < |b| && a[k] < b[k]));
        if k > 0 {
          assert a'[..k - 1] == a[..k][1..];
          assert b'[..k - 1] == b[..k][1..];
        }
      }
    }
  }

  /** The code points of a string. */
  function Codes(s: string): (cs: seq<int>)
    ensures |cs| == |s|
    ensures forall i :: 0 <= i < |s| ==> cs[i] == s[i] as int
  {
    seq(|s|, i requires 0 <= i < |s| => s[i] as int)
  }

  lemma CodesInjective(s: string, t: string)
    ensures Codes(s) == Codes(t) <==> s == t
  {
    if Codes(s) == Codes(t) {
      assert |s| == |t|;
      forall i | 0 <= i < |s| ensures s[i] == t[i] {
        assert Codes(s)[i] == Codes(t)[i];
      }
    }
  }

  /** Python's str order: by code point. */
  function CmpStr(a: string, b: string): Ord {
    CmpInts(Codes(a), Codes(b))
  }

  /** Order of two tie_break values, or None where Python raises TypeError ('>' between an int
      and a list). The int 0 equals only itself; a nested [[...]] is compared with a flat list
      through their first elements, so only the empty flat list, a proper prefix, compares. */
  function CmpTie(a: TieBreak, b: TieBreak): Option<Ord> {
    match (a, b)
    case (TBZero, TBZero) => Some(EQ)
    case (TBZero, _) => None
    case (_, TBZero) => None
    case (TBInts(x), TBInts(y)) => Some(CmpInts(x, y))
    case (TBNested(x), TBNested(y)) => Some(CmpInts(x, y))
    case (TBInts(x), TBNested(_)) => if |x| == 0 then Some(LT) else None
    case (TBNested(_), TBInts(y)) => if |y| == 0 then Some(GT) else None
  }

  /** Order of two raw_data tuples (raw_values, flush_score, straight, gappers). */
  function CmpRaw(a: RawData, b: RawData): Ord {
    var o1 := CmpInts(a.rawValues, b.rawValues);
    if o1 != EQ then o1
    else
      var o2 := CmpInt(a.flushScore, b.flushScore);
      if o2 != EQ then o2
      else
        var o3 := CmpInt(a.straight, b.straight);
        if o3 != EQ then o3 else CmpInt(a.gappers, b.gappers)
  }

  /** Python's order on the tuple (rep, hand_value, tie_break, raw_data): the first unequal
      component decides, the label string first of all. */
  function CmpEval(a: Evaluation, b: Evaluation): Option<Ord> {
    var o1 := CmpStr(a.rep, b.rep);
    if o1 != EQ then Some(o1)
    else
      var o2 := CmpInt(a.handValue, b.handValue);
      if o2 != EQ then Some(o2)
      else
        match CmpTie(a.tieBreak, b.tieBreak)
        case None => None
        case Some(o3) => if o3 != EQ then Some(o3) else Some(CmpRaw(a.raw, b.raw))
  }

  lemma CmpTieFlip(a: TieBreak, b: TieBreak)
    ensures CmpTie(b, a) == (if CmpTie(a, b).None? then None else Some(Flip(CmpTie(a, b).value)))
  {
    match (a, b)
    case (TBInts(x), TBInts(y)) => CmpIntsFlip(x, y);
    case (TBNested(x), TBNested(y)) => CmpIntsFlip(x, y);
    case _ =>
  }

  lemma CmpRawFlip(a: RawData, b: RawData)
    ensures CmpRaw(b, a) == Flip(CmpRaw(a, b))
  {
    CmpIntsFlip(a.rawValues, b.rawValues);
  }

  /** Swapping the operands flips the order, and an error stays an error. */
  lemma CmpEvalFlip(a: Evaluation, b: Evaluation)
    ensures CmpEval(b, a) == (if CmpEval(a, b).None? then None else Some(Flip(CmpEval(a, b).value)))
  {
    CmpIntsFlip(Codes(a.rep), Codes(b.rep));
    CmpTieFlip(a.tieBreak, b.tieBreak);
    CmpRawFlip(a.raw, b.raw);
  }

  /** Every evaluation compares equal to itself. */
  lemma CmpEvalReflexive(a: Evaluation)
    ensures CmpEval(a, a) == Some(EQ)
  {
    CmpIntsEq(Codes(a.rep), Codes(a.rep));
    CmpIntsEq(a.raw.rawValues, a.raw.rawValues);
    match a.tieBreak
    case TBZero =>
    case TBInts(x) => CmpIntsEq(x, x);
    case TBNested(x) => CmpIntsEq(x, x);
  }

  /** How a pair of evaluations is turned into the winner's seat: 1 when seat 1's tuple is
      greater, 0 otherwise (ties go to seat 0), TypeError when Python cannot order them. */
  function Verdict(o: Option<Ord>): Result<int> {
    match o
    case None => Err(TypeError)
    case Some(GT) => Ok(1)
    case Some(_) => Ok(0)
  }

  /** compare_hands on two evaluations: 1 when seat 1's tuple is the greater, 0 otherwise, so
      ties go to seat 0; TypeError when Python cannot order the tuples. */
  function CompareEvaluations(e0: Evaluation, e1: Evaluation): (r: Result<int>)
    ensures r == Ok(1) <==> CmpEval(e1, e0) == Some(GT)
    ensures r == Ok(0) <==> CmpEval(e1, e0) == Some(EQ) || CmpEval(e1, e0) == Some(LT)
    ensures r.Err? <==> CmpEval(e1, e0).None?
    ensures r.Err? ==> r.error == TypeError
  {
    Verdict(CmpEval(e1, e0))
  }

  /** compare_hands as written: int(evaluate_hand(seat 1's cards) > evaluate_hand(seat 0's
      cards)). Seat 1's hand is evaluated first, so its error is the one raised. */
  function CompareHands(cards0: seq<Card>, cards1: seq<Card>): (r: Result<int>)
    ensures EvaluateHand(cards1).Err? ==> r == Err(EvaluateHand(cards1).error)
    ensures EvaluateHand(cards1).Ok? && EvaluateHand(cards0).Err? ==> r == Err(EvaluateHand(cards0).error)
    ensures EvaluateHand(cards0).Ok? && EvaluateHand(cards1).Ok?
            ==> r == CompareEvaluations(EvaluateHand(cards0).value, EvaluateHand(cards1).value)
  {
    var e1 :- EvaluateHand(cards1);
    var e0 :- EvaluateHand(cards0);
    CompareEvaluations(e0, e1)
  }

  /** An evaluation compared with itself goes to seat 0. */
  lemma CompareSelf(e: Evaluation)
    ensures CompareEvaluations(e, e) == Ok(0)
  {
    CmpEvalReflexive(e);
  }

  /** If seat 1 wins, swapping the seats makes seat 0 the winner: at most one seat's hand is
      strictly greater; and an unorderable pair stays unorderable. */
  lemma CompareAntisymmetric(e0: Evaluation, e1: Evaluation)
    ensures CompareEvaluations(e0, e1) == Ok(1) ==> CompareEvaluations(e1, e0) == Ok(0)
    ensures CompareEvaluations(e0, e1).Err? <==> CompareEvaluations(e1, e0).Err?
  {
    CmpEvalFlip(e1, e0);
  }

  /** The label decides: whenever the two labels differ, the winner is the seat whose label is
      the greater string, whatever the hand values are. */
  lemma LabelDecides(e0: Evaluation, e1: Evaluation)
    requires e0.rep != e1.rep
    ensures CompareEvaluations(e0, e1) == Ok(if CmpStr(e1.rep, e0.rep) == GT then 1 else 0)
  {
    CodesInjective(e1.rep, e0.rep);
    CmpIntsEq(Codes(e1.rep), Codes(e0.rep));
  }

  /** Labels whose first letters differ: the later letter wins, whatever follows. */
  lemma FirstLetterDecides(e0: Evaluation, e1: Evaluation)
    requires |e0.rep| > 0 && |e1.rep| > 0 && e1.rep[0] > e0.rep[0]
    ensures CompareEvaluations(e0, e1) == Ok(1)
    ensures CompareEvaluations(e1, e0) == Ok(0)
  {
    var c0, c1 := Codes(e0.rep), Codes(e1.rep);
    assert c0[0] < c1[0];
    assert CmpInts(c1, c0) == GT;
    assert CmpInts(c0, c1) == LT;
  }

  /** Across classes, compare_hands as written ranks hands by the first letter of the branch's
      label: t(wo pair, rip) > p(air) > h(igh card) > f(ull house, our) > S(traight) > F(lush).
      Whenever seat 1's class has the later letter, seat 1 wins, whatever the hand values. */
  lemma LabelLetterDecides(cards0: seq<Card>, cards1: seq<Card>)
    requires EvaluateHand(cards0).Ok? && EvaluateHand(cards1).Ok?
    requires Prefix(ClassOf(FeaturesOf(cards1)))[0] > Prefix(ClassOf(FeaturesOf(cards0)))[0]
    ensures CompareHands(cards0, cards1) == Ok(1)
  {
    var e0, e1 := EvaluateHand(cards0).value, EvaluateHand(cards1).value;
    var p0, p1 := Prefix(ClassOf(FeaturesOf(cards0))), Prefix(ClassOf(FeaturesOf(cards1)));
    assert e0.rep[0] == p0[0] && e1.rep[0] == p1[0];
    FirstLetterDecides(e0, e1);
  }

  /** Any high-card hand on seat 1 beats any flush on seat 0 under compare_hands as written:
      'h' follows 'F'. */
  lemma HighCardBeatsFlush(cards0: seq<Card>, cards1: seq<Card>)
    requires EvaluateHand(cards0).Ok? && ClassOf(FeaturesOf(cards0)) == Flush
    requires EvaluateHand(cards1).Ok? && ClassOf(FeaturesOf(cards1)) == HighCard
    ensures CompareHands(cards0, cards1) == Ok(1)
  {
    LabelLetterDecides(cards0, cards1);
  }

  /** Any pair on seat 1 beats any four of a kind on seat 0 under compare_hands as written:
      'p' follows 'f'. */
  lemma PairBeatsQuads(cards0: seq<Card>, cards1: seq<Card>)
    requires EvaluateHand(cards0).Ok? && ClassOf(FeaturesOf(cards0)) == Quads
    requires EvaluateHand(cards1).Ok? && ClassOf(FeaturesOf(cards1)) == Pair
    ensures CompareHands(cards0, cards1) == Ok(1)
  {
    LabelLetterDecides(cards0, cards1);
  }

  /** The comparison the hand values are designed for: hand_value first, then tie_break, the
      label left out. The hundred-band of the hand value, and so the class, decides first. */
  function CompareByStrength(e0: Evaluation, e1: Evaluation): (r: Result<int>)
    ensures e1.handValue > e0.handValue ==> r == Ok(1)
    ensures e1.handValue < e0.handValue ==> r == Ok(0)
    ensures e1.handValue == e0.handValue ==>
              r == Verdict(CmpTie(e1.tieBreak, e0.tieBreak))
  {
    var o := CmpInt(e1.handValue, e0.handValue);
    if o != EQ then Verdict(Some(o))
    else Verdict(CmpTie(e1.tieBreak, e0.tieBreak))
  }

  /** As for compare_hands, swapping the seats turns a win for seat 1 into a win for seat 0. */
  lemma CompareByStrengthAntisymmetric(e0: Evaluation, e1: Evaluation)
    ensures CompareByStrength(e0, e1) == Ok(1) ==> CompareByStrength(e1, e0) == Ok(0)
  {
    CmpTieFlip(e1.tieBreak, e0.tieBreak);
  }

  /** Hands compared by strength: a stronger class always wins. */
  function CompareHandsByStrength(cards0: seq<Card>, cards1: seq<Card>): (r: Result<int>)
    ensures EvaluateHand(cards1).Err? ==> r == Err(EvaluateHand(cards1).error)
    ensures EvaluateHand(cards1).Ok? && EvaluateHand(cards0).Err? ==> r == Err(EvaluateHand(cards0).error)
    ensures EvaluateHand(cards0).Ok? && EvaluateHand(cards1).Ok? ==>
              && (ClassRank(ClassOf(FeaturesOf(cards1))) > ClassRank(ClassOf(FeaturesOf(cards0))) ==> r == Ok(1))
              && (ClassRank(ClassOf(FeaturesOf(cards1))) < ClassRank(ClassOf(FeaturesOf(cards0))) ==> r == Ok(0))
  {
    var e1 :- EvaluateHand(cards1);
    var e0 :- EvaluateHand(cards0);
    CompareByStrength(e0, e1)
  }

  lemma AcesLabel()
    ensures "pair of " + Cn(13) + "s" == "pair of aces"
  {
    assert Cn(13) == "ace";
  }

  lemma DeucesLabel()
    ensures "pair of " + Cn(1) + "s" == "pair of deuces"
  {
    assert Cn(1) == "deuce";
  }

  /** Pocket aces: two aces (rank 12) of different suits. */
  predicate PocketAces(cards: seq<Card>) {
    IsPocketPair(cards) && cards[0].rank == 12
  }

  /** Pocket deuces: two deuces (rank 0) of different suits. */
  predicate PocketDeuces(cards: seq<Card>) {
    IsPocketPair(cards) && cards[0].rank == 0
  }

  lemma PairOfAces(cards: seq<Card>)
    requires PocketAces(cards)
    ensures EvaluateHand(cards).Ok?
    ensures EvaluateHand(cards).value.rep == "pair of aces"
    ensures EvaluateHand(cards).value.handValue == 126
  {
    assert Value(cards[0]) == 13;
    PocketPair(cards);
    AcesLabel();
  }

  lemma PairOfDeuces(cards: seq<Card>)
    requires PocketDeuces(cards)
    ensures EvaluateHand(cards).Ok?
    ensures EvaluateHand(cards).value.rep == "pair of deuces"
    ensures EvaluateHand(cards).value.handValue == 102
  {
    assert Value(cards[0]) == 1;
    PocketPair(cards);
    DeucesLabel();
  }

  /** 'pair of deuces' is the greater string: 'd' follows 'a' after the common 'pair of '. */
  lemma DeucesLabelGreater()
    ensures CmpStr("pair of deuces", "pair of aces") == GT
  {
    var ca, cd := Codes("pair of aces"), Codes("pair of deuces");
    assert cd[..8] == ca[..8];
    assert ca[8] < cd[8];
    assert LexLess(ca, cd);
    CmpIntsIsLex(ca, cd);
    CmpIntsFlip(ca, cd);
  }

  /** Whatever their hand values and tie-breaks, a hand labelled 'pair of deuces' beats one
      labelled 'pair of aces' under the as-written comparison, on either seat. */
  lemma DeucesLabelWins(e0: Evaluation, e1: Evaluation)
    requires e0.rep == "pair of aces" && e1.rep == "pair of deuces"
    ensures CompareEvaluations(e0, e1) == Ok(1)
    ensures CompareEvaluations(e1, e0) == Ok(0)
  {
    DeucesLabelGreater();
    CmpIntsFlip(Codes("pair of deuces"), Codes("pair of aces"));
    LabelDecides(e0, e1);
    LabelDecides(e1, e0);
  }

  /** Seat 0 holds pocket aces (say the aces of hearts and diamonds), seat 1 pocket deuces
      (say the deuces of hearts and clubs): the labels 'pair of aces' and 'pair of deuces'
      first differ at 'a' < 'd', so compare_hands as written gives the pot to the deuces. */
  lemma DeucesBeatAces(cards0: seq<Card>, cards1: seq<Card>)
    requires PocketAces(cards0) && PocketDeuces(cards1)
    ensures CompareHands(cards0, cards1) == Ok(1)
  {
    PairOfAces(cards0);
    PairOfDeuces(cards1);
    DeucesLabelWins(EvaluateHand(cards0).value, EvaluateHand(cards1).value);
  }

  /** The same hands compared by strength: the aces' hand value 126 beats the deuces' 102, so
      seat 0 wins. */
  lemma AcesBeatDeucesByStrength(cards0: seq<Card>, cards1: seq<Card>)
    requires PocketAces(cards0) && PocketDeuces(cards1)
    ensures CompareHandsByStrength(cards0, cards1) == Ok(0)
  {
    PairOfAces(cards0);
    PairOfDeuces(cards1);
  }
  /** The same classes compared by strength: the flush on seat 0 beats the high card. */
  lemma FlushBeatsHighCardByStrength(cards0: seq<Card>, cards1: seq<Card>)
    requires EvaluateHand(cards0).Ok? && ClassOf(FeaturesOf(cards0)) == Flush
    requires EvaluateHand(cards1).Ok? && ClassOf(FeaturesOf(cards1)) == HighCard
    ensures CompareHandsByStrength(cards0, cards1) == Ok(0)
  {
  }

  /** And four of a kind on seat 0 beats the pair. */
  lemma QuadsBeatPairByStrength(cards0: seq<Card>, cards1: seq<Card>)
    requires EvaluateHand(cards0).Ok? && ClassOf(FeaturesOf(cards0)) == Quads
    requires EvaluateHand(cards1).Ok? && ClassOf(FeaturesOf(cards1)) == Pair
    ensures CompareHandsByStrength(cards0, cards1) == Ok(0)
  {
  }

}

=== FILE: dealing.dfy ===
/** Staged dealing from the tail of the deck, and conservation of cards over a hand. */
module Dealing {
  import opened Errors
  import opened Cards
  import opened Actions
  import opened Players

  /** The deck, the two players and the board between dealing stages. */
  datatype DealState = DealState(deck: seq<Card>, table: Table, board: seq<Card>)

  /** How many cards deal pops in a betting round: 4 preflop, 3 on the flop, 1 on the turn
      and on the river, none otherwise. */
  function CardsDealt(round: int): nat {
    if round == 0 then 4 else if round == 1 then 3 else if round == 2 || round == 3 then 1 else 0
  }

  /** deal: round 0 gives the dealer (as DealerSeat picks it) the 1st and 3rd card popped from
      the tail and the other seat the 2nd and 4th; round 1 appends three popped cards to the
      board, rounds 2 and 3 one. Popping from an exhausted deck is an IndexError. */
  function Deal(s: DealState, round: int): (r: Result<DealState>)
    ensures r.Err? <==> |s.deck| < CardsDealt(round)
    ensures r.Err? ==> r.error == IndexError
    ensures r.Ok? ==> r.value.deck == s.deck[..|s.deck| - CardsDealt(round)]
  {
    var d := s.deck;
    var n := |d|;
    if n < CardsDealt(round) then Err(IndexError)
    else if round == 0 then
      var first := DealerSeat(s.table);
      var second := 1 - first;
      var t1 := s.table.With(first, s.table.At(first).(cards := s.table.At(first).cards + [d[n - 1], d[n - 3]]));
      var t2 := t1.With(second, t1.At(second).(cards := t1.At(second).cards + [d[n - 2], d[n - 4]]));
      Ok(DealState(d[..n - 4], t2, s.board))
    else if round == 1 then
      Ok(DealState(d[..n - 3], s.table, s.board + [d[n - 1], d[n - 2], d[n - 3]]))
    else if round == 2 || round == 3 then
      Ok(DealState(d[..n - 1], s.table, s.board + [d[n - 1]]))
    else
      Ok(s)
  }

  /** All cards in play: deck, both hands and the board. */
  function InPlay(s: DealState): multiset<Card> {
    multiset(s.deck) + multiset(s.table.p0.cards) + multiset(s.table.p1.cards) + multiset(s.board)
  }

  /** What a successful deal does: the dealer's hand gains the 1st and 3rd card off the tail,
      the other hand the 2nd and 4th (round 0); the board gains the tail cards in pop order
      (rounds 1-3); stacks and flags never change. */
  lemma DealEffect(s: DealState, round: int)
    requires |s.deck| >= CardsDealt(round)
    ensures Deal(s, round).Ok?
    ensures
      var t := Deal(s, round).value; var d := s.deck; var n := |d|;
      var ds := DealerSeat(s.table);
      && (forall q: Seat :: t.table.At(q).stack == s.table.At(q).stack
                            && t.table.At(q).isDealer == s.table.At(q).isDealer
                            && t.table.At(q).isAllIn == s.table.At(q).isAllIn)
      && (round == 0 ==>
            t.board == s.board
            && t.table.At(ds).cards == s.table.At(ds).cards + [d[n - 1], d[n - 3]]
            && t.table.At(1 - ds).cards == s.table.At(1 - ds).cards + [d[n - 2], d[n - 4]])
      && (round != 0 ==> t.table == s.table)
      && (round == 1 ==> t.board == s.board + [d[n - 1], d[n - 2], d[n - 3]])
      && ((round == 2 || round == 3) ==> t.board == s.board + [d[n - 1]])
      && (CardsDealt(round) == 0 ==> t == s)
  {
  }

  /** No card is created or lost by a deal: the popped tail reappears in the hands or on
      the board. */
  lemma DealConserves(s: DealState, round: int)
    requires |s.deck| >= CardsDealt(round)
    ensures Deal(s, round).Ok?
    ensures InPlay(Deal(s, round).value) == InPlay(s)
  {
    if round == 0 {
      DealRound0Conserves(s);
    } else if 1 <= round <= 3 {
      DealBoardConserves(s, round);
    }
  }

  lemma DealBoardConserves(s: DealState, round: int)
    requires 1 <= round <= 3 && |s.deck| >= CardsDealt(round)
    ensures Deal(s, round).Ok?
    ensures InPlay(Deal(s, round).value) == InPlay(s)
  {
    var t := Deal(s, round).value;
    BoardRoundShape(s, round);
    BoardGainsTail(s.deck, s.board, t.board, CardsDealt(round));
    SameHandsConserve(s, t);
  }

  /** Rounds 1-3 leave the hands alone and move the tail cards to the board in pop order. */
  lemma BoardRoundShape(s: DealState, round: int)
    requires 1 <= round <= 3 && |s.deck| >= CardsDealt(round)
    ensures Deal(s, round).Ok?
    ensures
      var t := Deal(s, round).value; var d := s.deck; var n := |d|;
      && t.table == s.table
      && t.deck == d[..n - CardsDealt(round)]
      && (round == 1 ==> t.board == s.board + [d[n - 1], d[n - 2], d[n - 3]])
      && (round != 1 ==> t.board == s.board + [d[n - 1]])
  {
  }

  /** With the hands untouched, what the deck lost the board gained. */
  lemma SameHandsConserve(s: DealState, t: DealState)
    requires t.table == s.table
    requires multiset(t.deck) + multiset(t.board) == multiset(s.deck) + multiset(s.board)
    ensures InPlay(t) == InPlay(s)
  {
    forall c ensures InPlay(t)[c] == InPlay(s)[c] {
      assert (multiset(t.deck) + multiset(t.board))[c] == (multiset(s.deck) + multiset(s.board))[c];
    }
  }

  /** Moving the k tail cards of a deck, in pop order, onto the end of the board. */
  lemma BoardGainsTail(d: seq<Card>, board: seq<Card>, board': seq<Card>, k: nat)
    requires 1 <= k <= 3 && k <= |d|
    requires k == 3 ==> board' == board + [d[|d| - 1], d[|d| - 2], d[|d| - 3]]
    requires k != 3 ==> k == 1 && board' == board + [d[|d| - 1]]
    ensures multiset(d[..|d| - k]) + multiset(board') == multiset(d) + multiset(board)
  {
    if k == 3 { GainThree(d, board, board'); } else { GainOne(d, board, board'); }
  }

  lemma GainOne(d: seq<Card>, board: seq<Card>, board': seq<Card>)
    requires 1 <= |d| && board' == board + [d[|d| - 1]]
    ensures multiset(d[..|d| - 1]) + multiset(board') == multiset(d) + multiset(board)
  {
    var n := |d|;
    assert d == d[..n - 1] + [d[n - 1]];
  }

  lemma GainThree(d: seq<Card>, board: seq<Card>, board': seq<Card>)
    requires 3 <= |d| && board' == board + [d[|d| - 1], d[|d| - 2], d[|d| - 3]]
    ensures multiset(d[..|d| - 3]) + multiset(board') == multiset(d) + multiset(board)
  {
    var n := |d|;
    var p := d[..n - 3];
    var a, b, c := d[n - 3], d[n - 2], d[n - 1];
    assert d == p + [a] + [b] + [c];
    assert board' == board + [c] + [b] + [a];
    var md := multiset(p) + multiset{a} + multiset{b} + multiset{c};
    var mb := multiset(board) + multiset{c} + multiset{b} + multiset{a};
    assert multiset(d) == md;
    assert multiset(board') == mb;
    forall x ensures (multiset(p) + mb)[x] == (md + multiset(board))[x] {
    }
  }

  lemma DealRound0Conserves(s: DealState)
    requires |s.deck| >= 4
    ensures Deal(s, 0).Ok?
    ensures InPlay(Deal(s, 0).value) == InPlay(s)
  {
    TailSplit(s.deck);
    HandsGain(s);
    var t := Deal(s, 0).value;
    assert t.board == s.board;
  }

  /** Splitting off the four tail cards of a deck, grouped as round 0 hands them out. */
  lemma TailSplit(d: seq<Card>)
    requires |d| >= 4
    ensures multiset(d) == multiset(d[..|d| - 4]) + multiset([d[|d| - 1], d[|d| - 3]])
                           + multiset([d[|d| - 2], d[|d| - 4]])
  {
    var n := |d|;
    var p := d[..n - 4];
    var a, b, c, e := d[n - 4], d[n - 3], d[n - 2], d[n - 1];
    assert d == p + [a] + [b] + [c] + [e];
    assert multiset(d) == multiset(p) + multiset{a} + multiset{b} + multiset{c} + multiset{e};
    assert multiset([e, b]) == multiset{e} + multiset{b} by { assert [e, b] == [e] + [b]; }
    assert multiset([c, a]) == multiset{c} + multiset{a} by { assert [c, a] == [c] + [a]; }
    forall x ensures multiset(d)[x] == (multiset(p) + multiset([e, b]) + multiset([c, a]))[x] {
    }
  }

  /** In round 0 the two hands together gain exactly the four tail cards. */
  lemma HandsGain(s: DealState)
    requires |s.deck| >= 4
    ensures Deal(s, 0).Ok?
    ensures
      var d := s.deck; var n := |d|; var t := Deal(s, 0).value;
      multiset(t.table.p0.cards) + multiset(t.table.p1.cards)
      == multiset(s.table.p0.cards) + multiset(s.table.p1.cards)
         + multiset([d[n - 1], d[n - 3]]) + multiset([d[n - 2], d[n - 4]])
      && t.deck == d[..n - 4] && t.board == s.board
  {
    var d := s.deck;
    var n := |d|;
    var t := Deal(s, 0).value;
    var a, b := s.table.p0.cards, s.table.p1.cards;
    var x, y := [d[n - 1], d[n - 3]], [d[n - 2], d[n - 4]];
    if s.table.p0.isDealer {
      assert t.table.p0.cards == a + x && t.table.p1.cards == b + y;
    } else {
      assert t.table.p1.cards == b + x && t.table.p0.cards == a + y;
    }
  }

  /** Deal the given rounds in order, stopping at the first failure. */
  function DealRounds(s: DealState, rounds: seq<int>): Result<DealState>
    decreases |rounds|
  {
    if |rounds| == 0 then Ok(s)
    else
      match Deal(s, rounds[0])
      case Err(e) => Err(e)
      case Ok(t) => DealRounds(t, rounds[1..])
  }

  /** A hand starts from a shuffled (any permutation of the) populated deck with empty hands
      and board. */
  predicate FreshHand(s: DealState) {
    multiset(s.deck) == multiset(Populate())
    && s.table.p0.cards == [] && s.table.p1.cards == [] && s.board == []
  }

  /** Card conservation over a hand: any successful sequence of deals keeps the cards in
      play, deck, hands and board together, exactly as they were. */
  lemma {:induction false} DealRoundsConserve(s: DealState, rounds: seq<int>)
    ensures DealRounds(s, rounds).Ok? ==> InPlay(DealRounds(s, rounds).value) == InPlay(s)
    decreases |rounds|
  {
    if |rounds| > 0 && DealRounds(s, rounds).Ok? {
      DealConserves(s, rounds[0]);
      DealRoundsConserve(Deal(s, rounds[0]).value, rounds[1..]);
    }
  }

  /** Starting from the 52 cards of a full deck, after any successful sequence of deals each
      card is in play exactly once. */
  lemma EveryCardOnce(s: DealState, rounds: seq<int>)
    ensures InPlay(s) == multiset(Populate()) && DealRounds(s, rounds).Ok? ==>
              forall c: Card :: InPlay(DealRounds(s, rounds).value)[c] == 1
  {
    if InPlay(s) == multiset(Populate()) && DealRounds(s, rounds).Ok? {
      DealRoundsConserve(s, rounds);
      forall c: Card ensures InPlay(DealRounds(s, rounds).value)[c] == 1 {
        PopulateCountsOne(c);
      }
    }
  }

  /** A fresh hand, a shuffled full deck and no cards dealt, holds every card once. */
  lemma FreshHandInPlay(s: DealState)
    ensures FreshHand(s) ==> InPlay(s) == multiset(Populate())
  {
  }

  /** The normal course of a hand: dealing rounds 0..3 from a full 52-card deck succeeds,
      leaves 43 cards, two hole cards per seat and five on the board. */
  lemma {:induction false} FullHandDeal(s: DealState)
    requires |s.deck| == 52 && s.table.p0.cards == [] && s.table.p1.cards == [] && s.board == []
    ensures DealRounds(s, [0, 1, 2, 3]).Ok?
    ensures
      var t := DealRounds(s, [0, 1, 2, 3]).value;
      |t.deck| == 43 && |t.table.p0.cards| == 2 && |t.table.p1.cards| == 2 && |t.board| == 5
  {
    var s1 := DealSizes(s, 0);
    var s2 := DealSizes(s1, 1);
    var s3 := DealSizes(s2, 2);
    var s4 := DealSizes(s3, 3);
    assert DealRounds(s3, [3]) == Ok(s4) by {
      assert [3][1..] == [];
    }
    assert DealRounds(s2, [2, 3]) == Ok(s4) by {
      assert [2, 3][1..] == [3];
    }
    assert DealRounds(s1, [1, 2, 3]) == Ok(s4) by {
      assert [1, 2, 3][1..] == [2, 3];
    }
    assert DealRounds(s, [0, 1, 2, 3]) == Ok(s4) by {
      assert [0, 1, 2, 3][1..] == [1, 2, 3];
    }
  }

  /** The sizes after one successful deal. */
  lemma DealSizes(s: DealState, round: int) returns (t: DealState)
    requires |s.deck| >= CardsDealt(round)
    ensures Deal(s, round) == Ok(t)
    ensures |t.deck| == |s.deck| - CardsDealt(round)
    ensures |t.board| == |s.board| + (if round == 0 then 0 else CardsDealt(round))
    ensures |t.table.p0.cards| == |s.table.p0.cards| + (if round == 0 then 2 else 0)
    ensures |t.table.p1.cards| == |s.table.p1.cards| + (if round == 0 then 2 else 0)
  {
    DealEffect(s, round);
    t := Deal(s, round).value;
    assert |t.table.At(0).cards| == |s.table.At(0).cards| + (if round == 0 then 2 else 0);
    assert |t.table.At(1).cards| == |s.table.At(1).cards| + (if round == 0 then 2 else 0);
  }

  /** A fresh hand's deck, the populated cards in any order, has 52 cards. */
  lemma FreshDeckSize(s: DealState)
    ensures FreshHand(s) ==> |s.deck| == 52
  {
    if FreshHand(s) {
      assert |multiset(s.deck)| == |multiset(Populate())|;
    }
  }
}

=== FILE: encoding.dfy ===
/** The fixed-shape integer grids handed to the learning agent: cards as indicator grids,
    actions as 5-slot vectors, the action log as one 6 x 5 x 2 tensor per round. */
module Encoding {
  import opened Errors
  import opened Cards
  import opened Actions

  /** A 13 x 4 rank-by-suit grid (hole cards), or a 3 x 13 x 4 grid of such planes (board). */
  datatype CardGrid = Hole(grid: seq<seq<int>>) | Board(planes: seq<seq<seq<int>>>)

  /** rows x cols zeros. */
  function Zeros2(rows: nat, cols: nat): (g: seq<seq<int>>)
    ensures |g| == rows && forall v :: 0 <= v < rows ==> |g[v]| == cols
    ensures forall v, s :: 0 <= v < rows && 0 <= s < cols ==> g[v][s] == 0
  {
    seq(rows, _ => seq(cols, _ => 0))
  }

  /** A well-shaped rank-by-suit grid. */
  predicate IsGrid(g: seq<seq<int>>) {
    |g| == 13 && forall v :: 0 <= v < 13 ==> |g[v]| == 4
  }

  /** The hole-card grid after the loop has set array[value, suit] = 1 for each card of cards:
      a cell is 1 exactly when its card is among them. */
  function MarkHole(cards: seq<Card>): (g: seq<seq<int>>)
    ensures IsGrid(g)
    ensures forall v: Rank, s: Suit :: g[v][s] == (if Card(v, s) in cards then 1 else 0)
  {
    if |cards| == 0 then Zeros2(13, 4)
    else
      var g := MarkHole(cards[..|cards| - 1]);
      var c := cards[|cards| - 1];
      assert cards == cards[..|cards| - 1] + [c];
      g[c.rank := g[c.rank][c.suit := 1]]
  }

  /** The plane a board card goes to by its position: the first three cards (the flop) to
      plane 0, the fourth (turn) to plane 1, the fifth (river) to plane 2. */
  function PlaneOf(i: nat): int {
    if i < 3 then 0 else i - 2
  }

  /** A well-shaped 3 x 13 x 4 board grid. */
  predicate IsBoardGrid(b: seq<seq<seq<int>>>) {
    |b| == 3 && forall p :: 0 <= p < 3 ==> IsGrid(b[p])
  }

  /** Card i of the board is the card (v, s) and sits on plane p. */
  predicate OnPlane(cards: seq<Card>, i: int, p: int, v: Rank, s: Suit) {
    0 <= i < |cards| && PlaneOf(i) == p && cards[i] == Card(v, s)
  }

  /** The board grid after the loop has set array[idx, value, suit] = 1 for the first k cards. */
  function MarkBoard(cards: seq<Card>, k: nat): (b: seq<seq<seq<int>>>)
    requires k <= |cards| <= 5
    ensures IsBoardGrid(b)
    ensures forall p, v: Rank, s: Suit :: 0 <= p < 3 ==>
      b[p][v][s] == (if exists i :: 0 <= i < k && OnPlane(cards, i, p, v, s) then 1 else 0)
  {
    if k == 0 then seq(3, _ => Zeros2(13, 4))
    else
      var b := MarkBoard(cards, k - 1);
      var c := cards[k - 1];
      var p := PlaneOf(k - 1);
      var b' := b[p := b[p][c.rank := b[p][c.rank][c.suit := 1]]];
      assert OnPlane(cards, k - 1, p, c.rank, c.suit);
      b'
  }

  /** cards_to_array: two cards give the 13 x 4 indicator grid; no card, or 3, 4 or 5 board
      cards, give the 3 x 13 x 4 grid with each card on its street's plane; one card or more
      than five is a ValueError. */
  function CardsToArray(cards: seq<Card>): (r: Result<CardGrid>)
    ensures r.Err? <==> |cards| == 1 || |cards| > 5
    ensures r.Err? ==> r.error == ValueError
    ensures |cards| == 2 ==>
      && r.Ok? && r.value.Hole? && IsGrid(r.value.grid)
      && forall v: Rank, s: Suit :: r.value.grid[v][s] == (if Card(v, s) in cards then 1 else 0)
    ensures |cards| in {0, 3, 4, 5} ==>
      && r.Ok? && r.value.Board? && IsBoardGrid(r.value.planes)
      && forall p, v: Rank, s: Suit :: 0 <= p < 3 ==>
           r.value.planes[p][v][s] == (if exists i :: OnPlane(cards, i, p, v, s) then 1 else 0)
  {
    if |cards| == 2 then Ok(Hole(MarkHole(cards)))
    else if |cards| == 1 || |cards| > 5 then Err(ValueError)
    else if |cards| == 0 then Ok(Board(seq(3, _ => Zeros2(13, 4))))
    else Ok(Board(MarkBoard(cards, |cards|)))
  }

  /** The cards a rank-by-suit grid marks with a 1. */
  function GridCards(g: seq<seq<int>>): set<Card>
    requires IsGrid(g)
  {
    set v: Rank, s: Suit | g[v][s] == 1 :: Card(v, s)
  }

  /** Reading the hole grid back gives the two cards; when they differ the grid holds exactly
      two ones. */
  lemma HoleGridRoundTrip(cards: seq<Card>)
    requires |cards| == 2
    ensures CardsToArray(cards).Ok?
    ensures GridCards(CardsToArray(cards).value.grid) == {cards[0], cards[1]}
    ensures cards[0] != cards[1] ==> |GridCards(CardsToArray(cards).value.grid)| == 2
  {
    var g := CardsToArray(cards).value.grid;
    forall c | c in GridCards(g) ensures c in {cards[0], cards[1]} {
      assert c in cards;
    }
    forall c | c in {cards[0], cards[1]} ensures c in GridCards(g) {
      assert g[c.rank][c.suit] == 1;
    }
  }

  /** Reading a five-card board grid back plane by plane: the flop on plane 0, the turn on
      plane 1, the river on plane 2. */
  lemma BoardGridRoundTrip(cards: seq<Card>)
    requires |cards| == 5
    ensures CardsToArray(cards).Ok?
    ensures GridCards(CardsToArray(cards).value.planes[0]) == {cards[0], cards[1], cards[2]}
    ensures GridCards(CardsToArray(cards).value.planes[1]) == {cards[3]}
    ensures GridCards(CardsToArray(cards).value.planes[2]) == {cards[4]}
  {
    var b := CardsToArray(cards).value.planes;
    forall p | 0 <= p < 3
      ensures GridCards(b[p]) == set i | 0 <= i < 5 && PlaneOf(i) == p :: cards[i]
    {
      forall c | c in GridCards(b[p]) ensures exists i :: 0 <= i < 5 && PlaneOf(i) == p && cards[i] == c {
        assert b[p][c.rank][c.suit] == 1;
        var i :| OnPlane(cards, i, p, c.rank, c.suit);
      }
      forall i | 0 <= i < 5 && PlaneOf(i) == p ensures cards[i] in GridCards(b[p]) {
        assert OnPlane(cards, i, p, cards[i].rank, cards[i].suit);
      }
    }
    assert (set i | 0 <= i < 5 && PlaneOf(i) == 0 :: cards[i]) == {cards[0], cards[1], cards[2]};
    assert (set i | 0 <= i < 5 && PlaneOf(i) == 1 :: cards[i]) == {cards[3]};
    assert (set i | 0 <= i < 5 && PlaneOf(i) == 2 :: cards[i]) == {cards[4]};
  }

  /** The slot action_to_array uses for a kind: check 0, bet 1, call 2, raise 3, all in 4;
      fold and null have none. */
  function SlotOf(k: Kind): int {
    match k
    case Check => 0
    case Bet => 1
    case Call => 2
    case Raise => 3
    case AllIn => 4
    case _ => -1
  }

  /** action_to_array: a check sets slot 0 to 1; bet, call, raise and all in put the amount in
      their slot; fold and null give all zeros. */
  function ActionToArray(a: Action): (r: seq<int>)
    ensures |r| == 5
    ensures forall i :: 0 <= i < 5 && i != SlotOf(a.kind) ==> r[i] == 0
    ensures a.kind == Check ==> r[0] == 1
    ensures a.kind in {Bet, Call, Raise, AllIn} ==> r[SlotOf(a.kind)] == a.amount
  {
    var z := [0, 0, 0, 0, 0];
    match a.kind
    case Check => z[0 := 1]
    case Bet => z[1 := a.amount]
    case Call => z[2 := a.amount]
    case Raise => z[3 := a.amount]
    case AllIn => z[4 := a.amount]
    case _ => z
  }

  /** Reading a 5-slot vector back: the first nonzero slot names the kind and carries the
      amount (a check's amount is not recorded); all zeros reads as no action. */
  function ArrayToAction(r: seq<int>): Option<Action>
    requires |r| == 5
  {
    if r[0] != 0 then Some(Action(Check, 0))
    else if r[1] != 0 then Some(Action(Bet, r[1]))
    else if r[2] != 0 then Some(Action(Call, r[2]))
    else if r[3] != 0 then Some(Action(Raise, r[3]))
    else if r[4] != 0 then Some(Action(AllIn, r[4]))
    else None
  }

  /** The encoding loses only what it means to: fold, null and zero-amount wagers read back as
      no action, a check reads back as a check of 0, every other action reads back unchanged;
      so at most one slot is ever nonzero. */
  lemma ActionArrayRoundTrip(a: Action)
    ensures a.kind in {Fold, Null} ==> ArrayToAction(ActionToArray(a)) == None
    ensures a.kind == Check ==> ArrayToAction(ActionToArray(a)) == Some(Action(Check, 0))
    ensures a.kind in {Bet, Call, Raise, AllIn} && a.amount != 0 ==>
      ArrayToAction(ActionToArray(a)) == Some(a)
    ensures a.kind in {Bet, Call, Raise, AllIn} && a.amount == 0 ==>
      ArrayToAction(ActionToArray(a)) == None
    ensures forall i, j :: 0 <= i < j < 5 ==> ActionToArray(a)[i] == 0 || ActionToArray(a)[j] == 0
  {
  }

  /** A 6 x 5 x 2 tensor: action number, action slot, seat. */
  type Tensor = seq<seq<seq<int>>>

  predicate IsTensor(t: Tensor) {
    |t| == 6 && forall k :: 0 <= k < 6 ==> |t[k]| == 5 && forall j :: 0 <= j < 5 ==> |t[k][j]| == 2
  }

  function ZeroTensor(): (t: Tensor)
    ensures IsTensor(t)
    ensures forall k, j, p :: 0 <= k < 6 && 0 <= j < 5 && 0 <= p < 2 ==> t[k][j][p] == 0
  {
    seq(6, _ => seq(5, _ => [0, 0]))
  }

  /** b_round_plays[k, :, p] = vec. */
  function WriteColumn(t: Tensor, k: int, p: Seat, vec: seq<int>): (t': Tensor)
    requires IsTensor(t) && 0 <= k < 6 && |vec| == 5
    ensures IsTensor(t')
    ensures forall i, j, q :: 0 <= i < 6 && 0 <= j < 5 && 0 <= q < 2 ==>
      t'[i][j][q] == (if i == k && q == p then vec[j] else t[i][j][q])
  {
    t[k := seq(5, j requires 0 <= j < 5 => t[k][j][p := vec[j]])]
  }

  /** The tensor after the loop has written the first n actions of one seat. */
  function WriteSeat(t: Tensor, acts: seq<Action>, p: Seat, n: nat): (t': Tensor)
    requires IsTensor(t) && n <= |acts| && n <= 6
    ensures IsTensor(t')
    ensures forall i, j, q :: 0 <= i < 6 && 0 <= j < 5 && 0 <= q < 2 ==>
      t'[i][j][q] == (if q == p && i < n then ActionToArray(acts[i])[j] else t[i][j][q])
  {
    if n == 0 then t
    else WriteColumn(WriteSeat(t, acts, p, n - 1), n - 1, p, ActionToArray(acts[n - 1]))
  }

  /** t encodes the round: slot [k][j][p] holds slot j of seat p's k-th action of the
      round, zero past the seat's last action. */
  predicate EncodesRound(t: Tensor, rl: RoundLog) {
    && IsTensor(t)
    && forall k, j, p: Seat :: 0 <= k < 6 && 0 <= j < 5 ==>
         t[k][j][p] == (if k < |rl.Of(p)| then ActionToArray(rl.Of(p)[k])[j] else 0)
  }

  /** One round's tensor; a seat with more than 6 actions indexes past the tensor. */
  function RoundToArray(rl: RoundLog): (r: Result<Tensor>)
    ensures r.Err? <==> |rl.seat0| > 6 || |rl.seat1| > 6
    ensures r.Ok? ==> EncodesRound(r.value, rl)
  {
    if |rl.seat0| > 6 || |rl.seat1| > 6 then Err(IndexError)
    else
      var t0 := WriteSeat(ZeroTensor(), rl.seat0, 0, |rl.seat0|);
      Ok(WriteSeat(t0, rl.seat1, 1, |rl.seat1|))
  }

  /** No seat has more than 6 actions in any round. */
  predicate FitsTensors(log: Log) {
    forall r :: 0 <= r < |log| ==> |log[r].seat0| <= 6 && |log[r].seat1| <= 6
  }

  /** actions_to_array: one 6 x 5 x 2 tensor per round in round order; slot [k][j][p] holds
      slot j of seat p's k-th action of the round, zero-padded; a seat with more than six
      actions in a round is an IndexError. */
  function ActionsToArray(log: Log): (r: Result<seq<Tensor>>)
    ensures r.Ok? <==> FitsTensors(log)
    ensures r.Err? ==> r.error == IndexError
    ensures r.Ok? ==> |r.value| == |log|
    ensures r.Ok? ==> forall b :: 0 <= b < |log| ==> EncodesRound(r.value[b], log[b])
  {
    if |log| == 0 then Ok([])
    else
      var prefix := log[..|log| - 1];
      assert forall b :: 0 <= b < |prefix| ==> prefix[b] == log[b];
      assert FitsTensors(log) <==>
        FitsTensors(prefix) && |log[|log| - 1].seat0| <= 6 && |log[|log| - 1].seat1| <= 6;
      match ActionsToArray(prefix)
      case Err(e) => Err(e)
      case Ok(ts) =>
        match RoundToArray(log[|log| - 1])
        case Err(e) => Err(e)
        case Ok(t) =>
          assert forall b :: 0 <= b < |ts| ==> (ts + [t])[b] == ts[b];
          Ok(ts + [t])
  }
}

=== FILE: errors.dfy ===
/** The exceptions the game code can raise, and a result type that carries them. */
module Errors {

  /** The Python exceptions that the modelled code raises on bad input. */
  datatype PyError =
    | IndexError      // list index or pop out of range
    | KeyError        // missing dictionary key
    | ValueError      // rejected argument (cards_to_array)
    | TypeError       // comparison of an int with a list
    | AssertionError  // failed assert (Action constructor)

  /** Either a value or the exception that ended the call. */
  datatype Result<+T> = Ok(value: T) | Err(error: PyError) {

    predicate IsFailure() {
      Err?
    }

    function PropagateFailure<U>(): Result<U>
      requires Err?
    {
      Err(error)
    }

    function Extract(): T
      requires Ok?
    {
      value
    }
  }

  datatype Option<+T> = None | Some(value: T)
}

=== FILE: evaluator.dfy ===
/** The hand evaluator (evaluate_hand) with the rank-name table it labels hands with. */
module Evaluator {
  import opened Errors
  import opened Seqs
  import opened Cards
  import opened Straights

  /** The names table: value 1 is 'deuce' ... value 13 is 'ace'. */
  const NAMES: seq<string> := ["deuce", "three", "four", "five", "six", "seven", "eight",
                               "nine", "ten", "jack", "queen", "king", "ace"]

  /** cn(value): the name of a card value; only values 1..13 have one. */
  function Cn(v: int): string
    requires 1 <= v <= 13
  {
    NAMES[v - 1]
  }

  /** The branches of evaluate_hand, in the order of their strength bands. */
  datatype HandClass =
    | HighCard | Pair | TwoPair | Trips | Straight | Flush | FullHouse | Quads | StraightFlush

  /** The hundred-band a class's hand value lies in. */
  function ClassRank(c: HandClass): int {
    match c
    case HighCard => 0
    case Pair => 1
    case TwoPair => 2
    case Trips => 3
    case Straight => 4
    case Flush => 5
    case FullHouse => 6
    case Quads => 7
    case StraightFlush => 8
  }

  /** tie_break: the int 0 when no value repeats; a list of ints; or, for three pairs with no
      single card left over, the one-element list [winning_cards[5:]] holding a list. */
  datatype TieBreak = TBZero | TBInts(ints: seq<int>) | TBNested(inner: seq<int>)

  /** raw_data: (raw_values, flush_score, straight, gappers). */
  datatype RawData = RawData(rawValues: seq<int>, flushScore: int, straight: int, gappers: int)

  /** evaluate_hand's result tuple (rep, hand_value, tie_break, raw_data). */
  datatype Evaluation = Evaluation(rep: string, handValue: int, tieBreak: TieBreak, raw: RawData)

  /** Every value is a card value. */
  predicate CardValues(xs: seq<int>) {
    forall i :: 0 <= i < |xs| ==> 1 <= xs[i] <= 13
  }

  lemma CardValuesByMembership(xs: seq<int>, ys: seq<int>)
    requires CardValues(ys)
    requires forall x :: x in xs ==> x in ys
    ensures CardValues(xs)
  {
    forall i | 0 <= i < |xs| ensures 1 <= xs[i] <= 13 {
      assert xs[i] in xs;
      var j :| 0 <= j < |ys| && ys[j] == xs[i];
    }
  }

  lemma SortKeepsCardValues(xs: seq<int>)
    requires CardValues(xs)
    ensures CardValues(SortDesc(xs))
  {
    var r := SortDesc(xs);
    forall x | x in r ensures x in xs {
      assert x in multiset(r);
    }
    CardValuesByMembership(r, xs);
  }

  /** The card values, in card order. */
  function Values(cards: seq<Card>): (vs: seq<int>)
    ensures |vs| == |cards|
    ensures forall i :: 0 <= i < |cards| ==> vs[i] == Value(cards[i])
    ensures CardValues(vs)
  {
    seq(|cards|, i requires 0 <= i < |cards| => Value(cards[i]))
  }

  /** The card suits, in card order. */
  function Suits(cards: seq<Card>): (ss: seq<int>)
    ensures |ss| == |cards|
    ensures forall i :: 0 <= i < |cards| ==> ss[i] == cards[i].suit
  {
    seq(|cards|, i requires 0 <= i < |cards| => cards[i].suit)
  }

  /** The values of the cards of one suit, in card order. */
  function SuitValues(cards: seq<Card>, suit: int): (vs: seq<int>)
    ensures CardValues(vs)
    ensures forall x :: x in vs <==> exists i :: 0 <= i < |cards| && cards[i].suit == suit && Value(cards[i]) == x
  {
    if |cards| == 0 then []
    else
      var rest := SuitValues(cards[..|cards| - 1], suit);
      var c := cards[|cards| - 1];
      var vs := if c.suit == suit then rest + [Value(c)] else rest;
      assert forall i :: 0 <= i < |cards| - 1 ==> cards[..|cards| - 1][i] == cards[i];
      vs
  }

  /** One suit's values are as many as that suit's cards. */
  lemma {:induction false} SuitValuesCount(cards: seq<Card>, suit: int)
    ensures |SuitValues(cards, suit)| == Count(Suits(cards), suit)
  {
    if |cards| > 0 {
      var prefix, c := cards[..|cards| - 1], cards[|cards| - 1];
      SuitValuesCount(prefix, suit);
      assert Suits(cards) == Suits(prefix) + [c.suit];
      MultisetSnoc(Suits(prefix), c.suit, suit);
    } else {
      assert Suits(cards) == [];
    }
  }

  /** flush: some suit's count is exactly five (six or seven of a suit set no flag). */
  function HasFlush(suits: seq<int>): (b: bool)
    ensures b <==> exists s :: Count(suits, s) == 5
  {
    var ks := KeysWithCount(Distinct(suits), suits, 5);
    assert (exists s :: Count(suits, s) == 5) ==> |ks| > 0 by {
      if exists s :: Count(suits, s) == 5 {
        var s :| Count(suits, s) == 5;
        assert s in multiset(suits);
        assert s in ks;
      }
    }
    assert |ks| > 0 ==> exists s :: Count(suits, s) == 5 by {
      if |ks| > 0 {
        var w := ks[0];
        assert w in ks;
        assert Count(suits, w) == 5;
      }
    }
    |ks| > 0
  }

  /** The suit the suit loop ends on: the last distinct suit in order of first appearance. */
  function LastSuit(suits: seq<int>): (s: int)
    requires |suits| > 0
    ensures s in suits
    ensures forall x :: x in suits ==> FirstIndex(suits, x) <= FirstIndex(suits, s)
  {
    var ks := Distinct(suits);
    var s := ks[|ks| - 1];
    assert s in ks;
    DistinctInFirstAppearanceOrder(suits);
    forall x | x in suits ensures FirstIndex(suits, x) <= FirstIndex(suits, s) {
      assert x in ks;
      var i :| 0 <= i < |ks| && ks[i] == x;
    }
    s
  }

  /** flush_l: the values of the cards of the last suit, sorted in reverse. The suit loop has
      ended by then, so `key` is the last suit even when the five-card suit came earlier. */
  function FlushValues(cards: seq<Card>): (vs: seq<int>)
    requires |cards| > 0
    ensures |vs| > 0 && CardValues(vs) && IsDescending(vs)
    ensures multiset(vs) == multiset(SuitValues(cards, LastSuit(Suits(cards))))
    ensures |vs| == Count(Suits(cards), LastSuit(Suits(cards)))
  {
    var s := LastSuit(Suits(cards));
    var i :| 0 <= i < |cards| && Suits(cards)[i] == s;
    var own := SuitValues(cards, s);
    assert Value(cards[i]) in own;
    SuitValuesCount(cards, s);
    SortKeepsCardValues(own);
    SortDesc(own)
  }

  /** What evaluate_hand has computed by the time it picks a branch. */
  datatype Features = Features(
    raw: seq<int>,          // raw_values: the values in card order
    sorted: seq<int>,       // values sorted in reverse
    pairs: seq<int>,        // pair_l: values occurring twice, sorted in reverse
    trips: seq<int>,        // trip_l: values occurring three times, in first-appearance order
    quads: seq<int>,        // quad_l: values occurring four times, in first-appearance order
    singles: seq<int>,      // `values` once every repeated value is removed
    winning: seq<int>,      // winning_cards: every card of a repeated value, sorted in reverse
    flush: bool,            // some suit occurs exactly five times
    flushValues: seq<int>,  // flush_l: values of the last suit's cards, sorted in reverse
    flushScore: int,        // the last suit's count, or 0 when that count is 5
    straight: int)          // is_straight(values, min(5, len(values)))

  /** Properties every Features value built from cards has. */
  predicate WellFormed(f: Features) {
    && CardValues(f.raw) && CardValues(f.sorted) && CardValues(f.pairs) && CardValues(f.trips)
    && CardValues(f.quads) && CardValues(f.singles) && CardValues(f.winning)
    && |f.flushValues| > 0 && CardValues(f.flushValues)
    && 0 <= f.straight <= 13
  }

  /** pair_l, trip_l or quad_l: the values occurring exactly n times, in first-appearance
      order. */
  function Multiples(raw: seq<int>, n: nat): (ms: seq<int>)
    requires CardValues(raw)
    ensures CardValues(ms)
    ensures forall x :: x in ms <==> x in raw && Count(raw, x) == n
    ensures Unique(ms)
    ensures InKeyOrder(ms, raw)
  {
    var ms := KeysWithCount(Distinct(raw), raw, n);
    CardValuesByMembership(ms, raw);
    KeysWithCountOrder(Distinct(raw), raw, n);
    DistinctKeyOrder(ms, raw);
    ms
  }

  /** pair_l after its reverse sort. */
  function Pairs(raw: seq<int>): (ps: seq<int>)
    requires CardValues(raw)
    ensures CardValues(ps) && IsDescending(ps)
    ensures forall x :: x in ps <==> x in raw && Count(raw, x) == 2
  {
    var ms := Multiples(raw, 2);
    SortKeepsCardValues(ms);
    var ps := SortDesc(ms);
    assert forall x :: x in ps <==> x in multiset(ms);
    ps
  }

  /** The values, sorted in reverse, whose count lies in lo..hi: with 1..1 the `values` left
      after the removals, with 2..n the winning_cards. */
  function SortedWithCount(raw: seq<int>, lo: nat, hi: nat): (ws: seq<int>)
    requires CardValues(raw)
    ensures CardValues(ws) && IsDescending(ws)
    ensures forall x :: x in ws <==> x in raw && lo <= Count(raw, x) <= hi
    ensures forall x :: multiset(ws)[x] == if lo <= Count(raw, x) <= hi then Count(raw, x) else 0
  {
    var sorted := SortDesc(raw);
    SortKeepsCardValues(raw);
    assert forall x :: x in sorted <==> x in multiset(raw);
    var ws := FilterByCount(sorted, raw, lo, hi);
    CardValuesByMembership(ws, sorted);
    forall x ensures multiset(ws)[x] == if lo <= Count(raw, x) <= hi then Count(raw, x) else 0 {
      FilterByCountMultiset(sorted, raw, lo, hi, x);
    }
    ws
  }

  /** limit: the run length is_straight is asked for, min(5, len(values)). */
  function RunLength(n: nat): nat {
    if n < 5 then n else 5
  }

  /** straight: is_straight over the sorted values with run length min(5, len(values)). */
  function StraightOf(raw: seq<int>): (t: int)
    requires |raw| >= 1 && CardValues(raw)
    ensures 0 <= t <= 13
    ensures t == IsStraight(SortDesc(raw), RunLength(|raw|))
  {
    var sorted := SortDesc(raw);
    SortKeepsCardValues(raw);
    var length := RunLength(|sorted|);
    StraightTopIsValue(sorted, length);
    IsStraight(sorted, length)
  }

  /** flush_score: the last suit's count, or 0 when that count is five. */
  function FlushScore(suits: seq<int>): int
    requires |suits| > 0
  {
    var n := Count(suits, LastSuit(suits));
    if n == 5 then 0 else n
  }

  /** Compute the features of a hand of at least one card. */
  function FeaturesOf(cards: seq<Card>): (f: Features)
    requires |cards| >= 1
    ensures WellFormed(f)
    ensures f.raw == Values(cards)
    ensures f.flush == HasFlush(Suits(cards))
    ensures forall x :: x in f.pairs <==> x in f.raw && Count(f.raw, x) == 2
    ensures forall x :: x in f.trips <==> x in f.raw && Count(f.raw, x) == 3
    ensures forall x :: x in f.quads <==> x in f.raw && Count(f.raw, x) == 4
    ensures forall x :: x in f.singles <==> x in f.raw && Count(f.raw, x) == 1
    ensures Unique(f.trips)
    ensures IsDescending(f.sorted) && multiset(f.sorted) == multiset(f.raw)
    ensures IsDescending(f.pairs) && IsDescending(f.singles) && IsDescending(f.winning)
    ensures forall x :: multiset(f.winning)[x] == if Count(f.raw, x) >= 2 then Count(f.raw, x) else 0
    ensures f.flushValues == FlushValues(cards)
    ensures f.flushScore == FlushScore(Suits(cards))
    ensures f.straight == IsStraight(f.sorted, RunLength(|f.raw|))
    ensures InKeyOrder(f.trips, f.raw) && InKeyOrder(f.quads, f.raw)
  {
    var raw := Values(cards);
    SortKeepsCardValues(raw);
    var sorted, pairs, trips, quads := SortDesc(raw), Pairs(raw), Multiples(raw, 3), Multiples(raw, 4);
    var singles, winning := SortedWithCount(raw, 1, 1), SortedWithCount(raw, 2, |raw|);
    var flushValues, straight := FlushValues(cards), StraightOf(raw);
    assert InKeyOrder(trips, raw) && InKeyOrder(quads, raw);
    Features(raw, sorted, pairs, trips, quads, singles, winning,
             HasFlush(Suits(cards)), flushValues, FlushScore(Suits(cards)), straight)
  }

  /** What a branch reads beyond WellFormed: the lists it names must be nonempty and the
      straight's top must be a card value. */
  predicate Describable(f: Features, c: HandClass) {
    match c
    case Pair => |f.pairs| >= 1
    case TwoPair => |f.pairs| >= 2
    case Trips => |f.trips| >= 1
    case Straight => f.straight >= 1
    case Flush => true
    case FullHouse => |f.trips| >= 1 && |f.pairs| >= 1
    case Quads => |f.quads| >= 1
    case StraightFlush => f.straight >= 1
    case HighCard => |f.singles| >= 1
  }

  /** The branch evaluate_hand takes, its conditions tried in the order of the code. The pair tests
      come first, so one or two pairs hide a flush and a full house with a second pair reads
      as two pair; the flush test precedes the straight-flush test, so that branch is never
      taken. */
  function ClassOf(f: Features): (c: HandClass)
    ensures c != StraightFlush
    ensures c == Pair <==> |f.pairs| == 1 && |f.trips| == 0
    ensures c == TwoPair <==> |f.pairs| >= 2
    ensures c == Flush <==> f.flush && ((|f.pairs| == 0 && |f.trips| == 0) || (|f.pairs| == 1 && |f.trips| >= 1))
    ensures c == Straight ==> f.straight > 0 && !f.flush
    ensures c == HighCard ==> |f.pairs| <= 1 && !f.flush && |f.quads| == 0
    ensures c != HighCard ==> Describable(f, c)
  {
    if |f.pairs| == 1 && f.trips == [] then Pair
    else if |f.pairs| > 1 then TwoPair
    else if f.trips != [] && f.pairs == [] then Trips
    else if f.straight > 0 && !f.flush then Straight
    else if f.flush then Flush
    else if |f.trips| == 1 && |f.pairs| >= 1 then FullHouse
    else if f.quads != [] then Quads
    else if 1 <= f.straight < 9 && f.flush then StraightFlush
    else HighCard
  }

  /** tie_break as the multiples loop leaves it: 0 if no value repeated, else the values
      left once the repeated ones were removed. */
  function LoopTieBreak(f: Features): TieBreak {
    if |f.winning| == 0 then TBZero else TBInts(f.singles)
  }

  /** The fixed text each branch's rep label starts with. */
  function Prefix(c: HandClass): (p: string)
    ensures |p| > 0
  {
    match c
    case Pair => "pair of "
    case TwoPair => "two pair -"
    case Trips => "trip "
    case Straight => "Straight, "
    case Flush => "Flush, "
    case FullHouse => "full house - "
    case Quads => "four "
    case StraightFlush => "Straight flush, "
    case HighCard => "high card "
  }

  /** The rep label of each branch. */
  function Label(f: Features, c: HandClass): string
    requires WellFormed(f) && Describable(f, c)
  {
    match c
    case Pair => "pair of " + Cn(f.pairs[0]) + "s"
    case TwoPair => "two pair -" + Cn(f.pairs[0]) + "s and " + Cn(f.pairs[1]) + "s "
    case Trips => "trip " + Cn(f.trips[0]) + "s "
    case Straight => "Straight, " + Cn(f.straight) + " high"
    case Flush => "Flush, " + Cn(f.flushValues[0]) + " high"
    case FullHouse => "full house - " + Cn(f.trips[0]) + "s full of " + Cn(f.pairs[0]) + "s"
    case Quads => "four " + Cn(f.quads[0]) + " s"
    case StraightFlush => "Straight flush, " + Cn(f.straight) + " high"
    case HighCard => "high card " + Cn(f.singles[0])
  }

  /** Every label starts with its branch's fixed text. */
  lemma LabelHasPrefix(f: Features, c: HandClass)
    requires WellFormed(f) && Describable(f, c)
    ensures Prefix(c) <= Label(f, c)
  {
  }

  /** The lowest and highest hand_value a class can have. */
  function Band(c: HandClass): (int, int) {
    if c == HighCard then (1, 13) else (100 * ClassRank(c), 100 * ClassRank(c) + 99)
  }

  /** A prefix of at most k card values sums to at most 13 * k. */
  lemma TakeSumBounds(xs: seq<int>, k: nat)
    requires CardValues(xs)
    ensures 0 <= Sum(Take(xs, k)) <= 13 * k
  {
    var t := Take(xs, k);
    assert forall i :: 0 <= i < |t| ==> t[i] == xs[i];
    SumBounds(t, 1, 13);
  }

  /** The hand_value of each branch; it lies in the class's band, so a stronger class always
      has the larger hand_value. */
  function HandValue(f: Features, c: HandClass): (v: int)
    requires WellFormed(f) && Describable(f, c)
    ensures Band(c).0 <= v <= Band(c).1
    ensures v / 100 == ClassRank(c)
  {
    TakeSumBounds(f.winning, 2);
    TakeSumBounds(f.winning, 3);
    TakeSumBounds(f.winning, 4);
    match c
    case Pair => 100 + Sum(Take(f.winning, 2))
    case TwoPair => 200 + Sum(Take(f.winning, 4))
    case Trips => 300 + Sum(Take(f.winning, 3))
    case Straight => 400 + f.straight
    case Flush => 500 + f.flushValues[0]
    case FullHouse => 600 + Sum(Take(f.winning, 3))
    case Quads => 700 + Sum(Take(f.winning, 4))
    case StraightFlush => 800 + f.straight
    case HighCard => f.singles[0]
  }

  /** The tie_break of each branch. With three pairs the loop appended winning_cards[5:] to
      `values` as one element, and with no single card left two pair's values[:1] is that
      nested list. */
  function TieBreakOf(f: Features, c: HandClass): TieBreak {
    match c
    case Pair => TBInts(Take(f.singles, 3))
    case TwoPair =>
      if |f.pairs| == 3 && |f.singles| == 0 then TBNested(if |f.winning| >= 5 then f.winning[5..] else [])
      else TBInts(Take(f.singles, 1))
    case Trips => TBInts(Take(f.singles, 2))
    case Straight => LoopTieBreak(f)
    case Flush => TBInts(f.flushValues)
    case FullHouse => LoopTieBreak(f)
    case Quads => TBInts(Take(f.singles, 1))
    case StraightFlush => LoopTieBreak(f)
    case HighCard => TBInts(Take(f.singles, 4))
  }

  /** The two odd shapes of tie_break. It stays the int 0 exactly on the straight branch when
      no value repeated (the other branches overwrite it, and a full house has repeats); it is
      the nested list exactly when there are three pairs and no single card. */
  lemma TieBreakShapes(f: Features)
    requires forall x :: x in f.trips <==> x in f.raw && Count(f.raw, x) == 3
    requires forall x :: multiset(f.winning)[x] == if Count(f.raw, x) >= 2 then Count(f.raw, x) else 0
    ensures TieBreakOf(f, ClassOf(f)) == TBZero <==> ClassOf(f) == Straight && |f.winning| == 0
    ensures TieBreakOf(f, ClassOf(f)).TBNested? <==> |f.pairs| == 3 && |f.singles| == 0
  {
    if ClassOf(f) == FullHouse {
      var t := f.trips[0];
      assert t in f.trips;
      assert multiset(f.winning)[t] == 3;
    }
  }

  /** Some value occurs more than four times, which only repeated cards allow. */
  function TooManyOfAValue(raw: seq<int>): (b: bool)
    ensures b <==> exists i :: 0 <= i < |raw| && Count(raw, raw[i]) > 4
  {
    var big := FilterByCount(Distinct(raw), raw, 5, |raw|);
    forall i | 0 <= i < |raw| && Count(raw, raw[i]) > 4 ensures raw[i] in big {
      assert raw[i] in raw;
      assert Count(raw, raw[i]) <= |raw| by {
        assert multiset(raw)[raw[i]] <= |multiset(raw)|;
      }
    }
    assert |big| > 0 ==> big[0] in big;
    |big| > 0
  }

  /** evaluate_hand. It raises IndexError for fewer than two cards (gappers reads
      raw_values[1]), for a value occurring more than four times (multiples_l has no slot for
      it), and on the high-card branch when no single card is left (values[0]). Otherwise the
      hand_value lies in the band of the branch taken, and raw_data carries the values in card
      order and the difference of the first two. */
  function EvaluateHand(cards: seq<Card>): (r: Result<Evaluation>)
    ensures r.Err? ==> r.error == IndexError
    ensures r.Err? <==>
      || |cards| < 2
      || TooManyOfAValue(Values(cards))
      || (ClassOf(FeaturesOf(cards)) == HighCard && |FeaturesOf(cards).singles| == 0)
    ensures r.Ok? ==>
      && |cards| >= 2
      && Band(ClassOf(FeaturesOf(cards))).0 <= r.value.handValue <= Band(ClassOf(FeaturesOf(cards))).1
      && r.value.raw.rawValues == Values(cards)
      && r.value.raw.gappers == Value(cards[0]) - Value(cards[1])
    ensures r.Ok? ==>
      (r.value.tieBreak == TBZero <==>
         ClassOf(FeaturesOf(cards)) == Straight && NoRepeats(Values(cards)))
    ensures r.Ok? ==>
      (r.value.tieBreak.TBNested? <==>
         |FeaturesOf(cards).pairs| == 3 && |FeaturesOf(cards).singles| == 0)
    ensures r.Ok? ==> Prefix(ClassOf(FeaturesOf(cards))) <= r.value.rep
    ensures r.Ok? ==>
      && r.value.raw.flushScore == FlushScore(Suits(cards))
      && r.value.raw.straight == FeaturesOf(cards).straight
  {
    if |cards| < 2 then Err(IndexError)
    else if TooManyOfAValue(Values(cards)) then Err(IndexError)
    else
      var f := FeaturesOf(cards);
      var c := ClassOf(f);
      TieBreakShapes(f);
      WinningEmptyIff(f.raw, f.winning);
      if c == HighCard && |f.singles| == 0 then Err(IndexError)
      else
        var rep := Label(f, c);
        LabelHasPrefix(f, c);
        Ok(Evaluation(rep, HandValue(f, c), TieBreakOf(f, c),
                      RawData(f.raw, f.flushScore, f.straight, f.raw[0] - f.raw[1])))
  }

  /** Every value occurs once. */
  predicate NoRepeats(raw: seq<int>) {
    forall i :: 0 <= i < |raw| ==> Count(raw, raw[i]) == 1
  }

  /** winning_cards is empty exactly when no value repeats. */
  lemma WinningEmptyIff(raw: seq<int>, winning: seq<int>)
    requires forall x :: multiset(winning)[x] == if Count(raw, x) >= 2 then Count(raw, x) else 0
    ensures |winning| == 0 <==> NoRepeats(raw)
  {
    if |winning| == 0 {
      forall i | 0 <= i < |raw| ensures Count(raw, raw[i]) == 1 {
        var n := Count(raw, raw[i]);
        assert raw[i] in multiset(raw);
        assert n >= 1;
        assert winning == [];
        assert multiset(winning)[raw[i]] == 0;
      }
    } else {
      var w := winning[0];
      assert w in multiset(winning);
      assert w in multiset(raw);
      var i :| 0 <= i < |raw| && raw[i] == w;
    }
  }

  /** Suits a, a, a, a, a, b: a has five cards, so the flush flag is set, but b is the suit
      the suit loop ends on. */
  lemma FiveThenOneSuits(suits: seq<int>)
    requires |suits| == 6
    requires forall i :: 0 <= i < 5 ==> suits[i] == suits[0]
    requires suits[5] != suits[0]
    ensures HasFlush(suits)
    ensures LastSuit(suits) == suits[5]
    ensures Count(suits, suits[5]) == 1
  {
    var a, b := suits[0], suits[5];
    assert suits == [a, a, a, a, a, b];
    assert Count(suits, a) == 5;
    var s := LastSuit(suits);
    assert FirstIndex(suits, a) == 0;
    assert FirstIndex(suits, b) == 5;
  }

  /** When the last suit has one card, flush_l is that card's value alone. */
  lemma LoneLastSuitCard(cards: seq<Card>, i: nat)
    requires i < |cards|
    requires LastSuit(Suits(cards)) == cards[i].suit
    requires Count(Suits(cards), cards[i].suit) == 1
    ensures FlushValues(cards) == [Value(cards[i])]
  {
    var b := cards[i].suit;
    SuitValuesCount(cards, b);
    var own := SuitValues(cards, b);
    assert Value(cards[i]) in own;
    assert own == [Value(cards[i])];
    var fv := FlushValues(cards);
    assert multiset(fv) == multiset{Value(cards[i])};
    assert fv[0] in multiset(fv);
  }

  /** Distinct values leave no pair and no trips, and none occurs too often. */
  lemma DistinctValuesNoMultiples(raw: seq<int>)
    requires CardValues(raw) && Unique(raw)
    ensures Pairs(raw) == [] && Multiples(raw, 3) == []
    ensures !TooManyOfAValue(raw)
  {
    var ps, ts := Pairs(raw), Multiples(raw, 3);
    if ps != [] {
      assert ps[0] in ps;
      UniqueCountsAtMostOne(raw, ps[0]);
      assert false;
    }
    if ts != [] {
      assert ts[0] in ts;
      UniqueCountsAtMostOne(raw, ts[0]);
      assert false;
    }
    forall i | 0 <= i < |raw| ensures Count(raw, raw[i]) <= 4 {
      UniqueCountsAtMostOne(raw, raw[i]);
    }
    NoneTooMany(raw);
  }

  /** Five cards of one suit followed by a sixth of another suit, all of distinct values: the
      five-card suit sets the flush flag, but flush_l is read for the suit the suit loop ended
      on, the sixth card's. The hand is a flush whose value and label come from that one card. */
  lemma FlushReadsLastSuit(cards: seq<Card>)
    requires |cards| == 6
    requires forall i :: 0 <= i < 5 ==> cards[i].suit == cards[0].suit
    requires cards[5].suit != cards[0].suit
    requires Unique(Values(cards))
    ensures EvaluateHand(cards).Ok?
    ensures EvaluateHand(cards).value.handValue == 500 + Value(cards[5])
    ensures EvaluateHand(cards).value.rep == "Flush, " + Cn(Value(cards[5])) + " high"
    ensures EvaluateHand(cards).value.tieBreak == TBInts([Value(cards[5])])
  {
    FiveThenOneSuits(Suits(cards));
    LoneLastSuitCard(cards, 5);
    DistinctValuesNoMultiples(Values(cards));
    assert ClassOf(FeaturesOf(cards)) == Flush;
  }

  /** Two values v and v + 1, sorted, hold a run of length 2 starting at v and none higher. */
  lemma TwoValueStraight(v: int)
    requires 1 <= v <= 10
    ensures IsStraight([v + 1, v], 2) == v + 1
  {
    var vs := [v + 1, v];
    assert RunIn(vs, v, 2);
    forall l | v < l <= 10 ensures !RunIn(vs, l, 2) {
      assert l + 1 !in vs;
    }
    forall l | 1 <= l < v ensures !RunIn(vs, l, 2) {
      assert l !in vs;
    }
  }

  /** v and v + 1, in either order, sorted in reverse. */
  lemma TwoSorted(v: int)
    ensures SortDesc([v, v + 1]) == [v + 1, v] && SortDesc([v + 1, v]) == [v + 1, v]
  {
    assert [v, v + 1][..1] == [v] && [v + 1, v][..1] == [v + 1];
    assert SortDesc([v]) == [v] && SortDesc([v + 1]) == [v + 1] by {
      assert [v][..0] == [] && [v + 1][..0] == [];
    }
  }

  /** No suit reaches five among two cards. */
  lemma TwoCardsNoFlush(suits: seq<int>)
    requires |suits| == 2
    ensures !HasFlush(suits)
  {
  }

  /** Two hole cards of consecutive values v and v + 1, in either order, the higher at most
      value 11, already make a straight: the run length is min(5, len(values)), so a
      run of two counts. The hand is labelled a straight topped by the higher card, valued 400
      plus that card's value, and keeps the int 0 as tie_break. Values 5 and 6, say, give 406
      and "Straight, seven high". */
  lemma ConnectedHoleCardsStraight(cards: seq<Card>, v: int)
    requires |cards| == 2 && multiset(Values(cards)) == multiset{v, v + 1} && v <= 10
    ensures EvaluateHand(cards).Ok?
    ensures EvaluateHand(cards).value.handValue == 400 + v + 1
    ensures EvaluateHand(cards).value.rep == "Straight, " + Cn(v + 1) + " high"
    ensures EvaluateHand(cards).value.tieBreak == TBZero
  {
    var raw := Values(cards);
    assert raw[0] in multiset(raw) && raw[1] in multiset(raw);
    assert raw == [raw[0], raw[1]];
    ConnectedValues(raw, v);
    TwoCardsNoFlush(Suits(cards));
    assert ClassOf(FeaturesOf(cards)) == Straight;
  }

  /** The value-level facts behind ConnectedHoleCardsStraight. */
  lemma ConnectedValues(raw: seq<int>, v: int)
    requires CardValues(raw) && (raw == [v, v + 1] || raw == [v + 1, v]) && v <= 10
    ensures Pairs(raw) == [] && Multiples(raw, 3) == [] && !TooManyOfAValue(raw)
    ensures NoRepeats(raw)
    ensures StraightOf(raw) == v + 1
  {
    ConnectedOrders(raw, v);
    DistinctValuesNoMultiples(raw);
    assert v in raw;
    TwoValueStraight(v);
  }

  /** v, v + 1 in either order: sorted in reverse they are v + 1, v, and neither repeats. */
  lemma ConnectedOrders(raw: seq<int>, v: int)
    requires raw == [v, v + 1] || raw == [v + 1, v]
    ensures SortDesc(raw) == [v + 1, v]
    ensures Unique(raw) && NoRepeats(raw)
  {
    TwoSorted(v);
    assert multiset(raw) == multiset{v, v + 1};
  }

  /** Two trips: the label names trip_l[0], the trips whose value comes first in the cards,
      while hand_value sums the three highest winning cards, those of the higher trips. So
      listing the lower trips first labels the hand by them. */
  lemma TwoTripsLabel(cards: seq<Card>, a: int, b: int, c: int)
    requires |cards| == 7
    requires Values(cards) == [a, a, a, b, b, b, c]
    requires a != b && a != c && b != c
    ensures EvaluateHand(cards).Ok?
    ensures EvaluateHand(cards).value.rep == "trip " + Cn(a) + "s "
    ensures EvaluateHand(cards).value.handValue == 300 + 3 * (if a > b then a else b)
  {
    TwoTripsCounts(Values(cards), a, b, c);
    TwoTripsValues(Values(cards), a, b);
    assert ClassOf(FeaturesOf(cards)) == Trips;
  }

  /** The value-level facts behind TwoTripsLabel: a seen first, b occurring three times as
      well, every other value at most once. */
  lemma TwoTripsValues(raw: seq<int>, a: int, b: int)
    requires CardValues(raw) && |raw| > 3 && raw[0] == a && raw[3] == b && a != b
    requires Count(raw, a) == 3 && Count(raw, b) == 3
    requires forall x :: x != a && x != b ==> Count(raw, x) < 2
    ensures Pairs(raw) == [] && Multiples(raw, 3) == [a, b] && !TooManyOfAValue(raw)
    ensures Sum(Take(SortedWithCount(raw, 2, |raw|), 3)) == 3 * (if a > b then a else b)
  {
    NoPairs(raw);
    NoneTooMany(raw);
    assert a in raw && b in raw;
    TripsByFirstAppearance(Multiples(raw, 3), raw, a, b);
    var w := SortedWithCount(raw, 2, |raw|);
    if a > b {
      TopThreeOfTwoTrips(w, a, b);
    } else {
      TopThreeOfTwoTrips(w, b, a);
    }
  }

  /** No value occurring exactly twice leaves pair_l empty. */
  lemma NoPairs(raw: seq<int>)
    requires CardValues(raw)
    requires forall x :: Count(raw, x) != 2
    ensures Pairs(raw) == []
  {
  }

  /** The counts of three of a, three of b and one c. */
  lemma TwoTripsCounts(raw: seq<int>, a: int, b: int, c: int)
    requires raw == [a, a, a, b, b, b, c]
    requires a != b && a != c && b != c
    ensures Count(raw, a) == 3 && Count(raw, b) == 3
    ensures forall x :: x != a && x != b ==> Count(raw, x) < 2
  {
  }

  /** Two values occurring three times each: Counter's keys put the one seen first first. */
  lemma TripsByFirstAppearance(trips: seq<int>, raw: seq<int>, a: int, b: int)
    requires Unique(trips) && InKeyOrder(trips, raw)
    requires forall x :: x in trips <==> x == a || x == b
    requires |raw| > 3 && raw[0] == a && raw[3] == b && a != b
    ensures trips == [a, b]
  {
    assert FirstIndex(raw, a) == 0;
    assert FirstIndex(raw, b) > 0;
    assert a in trips && b in trips;
    assert |trips| >= 2;
    assert trips[0] == a;
    assert trips[1] in trips;
    forall i | 0 <= i < |trips| ensures trips[i] == a || trips[i] == b {
      assert trips[i] in trips;
    }
    TwoValuesCount(trips, a, b);
    UniqueCountsAtMostOne(trips, a);
    UniqueCountsAtMostOne(trips, b);
  }

  /** A sequence holding only a and b is as long as their two counts together. */
  lemma {:induction false} TwoValuesCount<T>(xs: seq<T>, a: T, b: T)
    requires a != b
    requires forall i :: 0 <= i < |xs| ==> xs[i] == a || xs[i] == b
    ensures |xs| == Count(xs, a) + Count(xs, b)
  {
    if |xs| > 0 {
      var p := xs[..|xs| - 1];
      forall i | 0 <= i < |p| ensures p[i] == a || p[i] == b {
        assert p[i] == xs[i];
      }
      TwoValuesCount(p, a, b);
    }
  }

  /** Three of hi and three of lo, sorted from largest to smallest: the first three are hi. */
  lemma TopThreeOfTwoTrips(w: seq<int>, hi: int, lo: int)
    requires IsDescending(w) && hi > lo
    requires forall x :: multiset(w)[x] == if x == hi || x == lo then 3 else 0
    ensures Sum(Take(w, 3)) == 3 * hi
  {
    forall i | 0 <= i < |w| ensures w[i] == hi || w[i] == lo {
      assert w[i] in multiset(w);
    }
    assert |w| >= 3 by {
      assert multiset(w)[hi] <= |multiset(w)|;
    }
    if w[2] != hi {
      var tail := w[2..];
      assert w == w[..2] + tail;
      forall j | 0 <= j < |tail| ensures tail[j] != hi {
        assert tail[j] == w[j + 2] && w[2] >= w[j + 2];
      }
      assert false;
    }
    assert w[0] == hi && w[1] == hi by {
      assert w[0] >= w[1] >= w[2];
    }
    var t := Take(w, 3);
    assert t == [hi, hi, hi];
    assert Sum([hi]) == hi by {
      assert [hi][..0] == [];
    }
    assert Sum([hi, hi]) == 2 * hi by {
      assert [hi, hi][..1] == [hi];
    }
    assert t[..2] == [hi, hi];
  }

  /** A value's count among the cards is the number of cards of that rank, suit by suit. */
  lemma {:induction false} CountOfRank(cards: seq<Card>, r: Rank)
    ensures multiset(Values(cards))[r + 1]
      == multiset(cards)[Card(r, 0)] + multiset(cards)[Card(r, 1)]
       + multiset(cards)[Card(r, 2)] + multiset(cards)[Card(r, 3)]
  {
    if |cards| > 0 {
      var prefix, c := cards[..|cards| - 1], cards[|cards| - 1];
      CountOfRank(prefix, r);
      assert cards == prefix + [c];
      CountOfRankStep(prefix, c, r);
    } else {
      assert Values(cards) == [];
    }
  }

  /** Appending a card c adds one to its value's count and one to the count of c itself. */
  lemma CountOfRankStep(prefix: seq<Card>, c: Card, r: Rank)
    ensures multiset(Values(prefix + [c]))[r + 1] == multiset(Values(prefix))[r + 1] + (if Value(c) == r + 1 then 1 else 0)
    ensures forall s: Suit :: multiset(prefix + [c])[Card(r, s)] == multiset(prefix)[Card(r, s)] + (if c == Card(r, s) then 1 else 0)
    ensures (if Value(c) == r + 1 then 1 else 0)
      == (if c == Card(r, 0) then 1 else 0) + (if c == Card(r, 1) then 1 else 0)
       + (if c == Card(r, 2) then 1 else 0) + (if c == Card(r, 3) then 1 else 0)
  {
    ValuesSnoc(prefix, c);
    MultisetSnoc(Values(prefix), Value(c), r + 1);
  }

  /** Appending a card appends its value. */
  lemma ValuesSnoc(cards: seq<Card>, c: Card)
    ensures Values(cards + [c]) == Values(cards) + [Value(c)]
  {
  }

  /** Among distinct cards no value occurs more than four times (one card per suit). */
  lemma AtMostFourOfAValue(cards: seq<Card>)
    requires Unique(cards)
    ensures forall i :: 0 <= i < |cards| ==> Count(Values(cards), Value(cards[i])) <= 4
  {
    forall i | 0 <= i < |cards| ensures Count(Values(cards), Value(cards[i])) <= 4 {
      AtMostFourOfRank(cards, cards[i]);
    }
  }

  lemma NoneTooMany(raw: seq<int>)
    requires forall i :: 0 <= i < |raw| ==> Count(raw, raw[i]) <= 4
    ensures !TooManyOfAValue(raw)
  {
  }

  /** At most four of the cards share the value of c. */
  lemma AtMostFourOfRank(cards: seq<Card>, c: Card)
    requires Unique(cards)
    ensures Count(Values(cards), Value(c)) <= 4
  {
    var r := c.rank;
    CountOfRank(cards, r);
    assert Value(c) == r as int + 1;
    UniqueCountsAtMostOne(cards, Card(r, 0));
    UniqueCountsAtMostOne(cards, Card(r, 1));
    UniqueCountsAtMostOne(cards, Card(r, 2));
    UniqueCountsAtMostOne(cards, Card(r, 3));
  }

  /** A high-card classification on at most seven values, none of them five times, still
      leaves a single: with no pair nor trips every value is a single, and the other way in,
      a pair and two trips, needs eight values. */
  lemma HighCardHasSingles(f: Features)
    requires WellFormed(f) && 1 <= |f.raw| <= 7
    requires !TooManyOfAValue(f.raw)
    requires forall x :: x in f.pairs <==> x in f.raw && Count(f.raw, x) == 2
    requires forall x :: x in f.trips <==> x in f.raw && Count(f.raw, x) == 3
    requires forall x :: x in f.quads <==> x in f.raw && Count(f.raw, x) == 4
    requires forall x :: x in f.singles <==> x in f.raw && Count(f.raw, x) == 1
    requires Unique(f.trips)
    requires ClassOf(f) == HighCard
    ensures |f.singles| > 0
  {
    if |f.pairs| == 0 {
      var x := f.raw[0];
      assert x in f.raw;
      assert Count(f.raw, x) <= 4;
      assert x in f.singles;
    } else {
      var p, t, u := f.pairs[0], f.trips[0], f.trips[1];
      assert p in f.pairs && t in f.trips && u in f.trips;
      ThreeCountsFit(f.raw, p, t, u);
      assert false;
    }
  }

  /** evaluate_hand never raises on a hold'em hand: two to seven distinct cards, i.e. the
      two hole cards and up to five board cards. */
  lemma HoldemHandsEvaluate(cards: seq<Card>)
    requires Unique(cards) && 2 <= |cards| <= 7
    ensures EvaluateHand(cards).Ok?
  {
    AtMostFourOfAValue(cards);
    NoneTooMany(Values(cards));
    var f := FeaturesOf(cards);
    if ClassOf(f) == HighCard {
      HighCardHasSingles(f);
    }
  }

  lemma TwinSorted(v: int)
    ensures SortDesc([v, v]) == [v, v]
  {
    var s := SortDesc([v, v]);
    assert s[0] in multiset(s) && s[1] in multiset(s);
  }

  lemma TwinDistinct(v: int)
    ensures Distinct([v, v]) == [v]
  {
    assert [v, v][..1] == [v];
    assert [v][..0] == [];
    assert Distinct([v]) == [v];
  }

  lemma TwinMultiples(v: int)
    requires 1 <= v <= 13
    ensures Pairs([v, v]) == [v]
    ensures Multiples([v, v], 3) == [] && Multiples([v, v], 4) == []
  {
    TwinDistinct(v);
  }

  lemma TwinSinglesAndWinning(v: int)
    requires 1 <= v <= 13
    ensures SortedWithCount([v, v], 1, 1) == []
    ensures SortedWithCount([v, v], 2, 2) == [v, v]
  {
    TwinSorted(v);
    assert Count([v, v], v) == 2;
    assert [v, v][1..] == [v];
    assert [v][1..] == [];
    assert FilterByCount([v], [v, v], 1, 1) == [];
    assert FilterByCount([v, v], [v, v], 1, 1) == [];
  }

  lemma TwinNoStraight(v: int)
    requires 1 <= v <= 13
    ensures StraightOf([v, v]) == 0
  {
    TwinSorted(v);
    forall low | 1 <= low <= 10 ensures !RunIn([v, v], low, 2) {
      assert low !in [v, v] || low + 1 !in [v, v];
    }
  }

  lemma TwoSuits(a: int, b: int)
    requires a != b
    ensures !HasFlush([a, b])
    ensures FlushScore([a, b]) == 1
  {
    assert [a, b][..1] == [a];
    assert [a][..0] == [];
    assert Distinct([a]) == [a];
    assert Distinct([a, b]) == [a, b];
    forall x ensures Count([a, b], x) <= 2 {
      assert multiset([a, b])[x] <= |multiset([a, b])|;
    }
  }

  /** Two cards of one rank in different suits. */
  predicate IsPocketPair(cards: seq<Card>) {
    |cards| == 2 && cards[0].rank == cards[1].rank && cards[0].suit != cards[1].suit
  }

  lemma PocketPairFeatures(cards: seq<Card>)
    requires IsPocketPair(cards)
    ensures
      var v := Value(cards[0]);
      FeaturesOf(cards) == Features([v, v], [v, v], [v], [], [], [], [v, v], false, FlushValues(cards), 1, 0)
  {
    var v := Value(cards[0]);
    assert Values(cards) == [v, v];
    assert Suits(cards) == [cards[0].suit, cards[1].suit];
    TwinSorted(v);
    TwinMultiples(v);
    TwinSinglesAndWinning(v);
    TwinNoStraight(v);
    TwoSuits(cards[0].suit, cards[1].suit);
  }

  lemma PocketPairClass(cards: seq<Card>)
    requires IsPocketPair(cards)
    ensures ClassOf(FeaturesOf(cards)) == Pair
  {
    PocketPairFeatures(cards);
  }

  lemma PocketPairValue(v: int, fv: seq<int>)
    requires 1 <= v <= 13 && |fv| > 0 && CardValues(fv)
    ensures HandValue(Features([v, v], [v, v], [v], [], [], [], [v, v], false, fv, 1, 0), Pair)
            == 100 + 2 * v
  {
    assert Take([v, v], 2) == [v, v];
    assert [v, v][..1] == [v];
    assert [v][..0] == [];
    assert Sum([v]) == v;
  }

  /** A pocket pair (two cards of one rank) evaluates to the label 'pair of <name>s', the
      hand value 100 plus twice the card value, an empty tie_break, and raw_data with the
      lone card of the last suit as flush_score, no straight and no gap. */
  lemma PocketPair(cards: seq<Card>)
    requires IsPocketPair(cards)
    ensures EvaluateHand(cards).Ok?
    ensures EvaluateHand(cards).value.rep == "pair of " + Cn(Value(cards[0])) + "s"
    ensures EvaluateHand(cards).value.handValue == 100 + 2 * Value(cards[0])
    ensures EvaluateHand(cards).value.tieBreak == TBInts([])
    ensures EvaluateHand(cards).value.raw == RawData([Value(cards[0]), Value(cards[0])], 1, 0, 0)
  {
    var v := Value(cards[0]);
    assert Values(cards) == [v, v];
    assert Count([v, v], v) == 2;
    PocketPairClass(cards);
    PocketPairFeatures(cards);
    PocketPairValue(v, FlushValues(cards));
  }
}

=== FILE: players.dfy ===
/** Per-seat state, the play rule with its all-in freeze and stack debit, and the blinds. */
module Players {
  import opened Errors
  import opened Seqs
  import opened Cards
  import opened Actions

  /** The blind sizes (small, big). */
  const BLINDS: (int, int) := (10, 20)

  /** pair[i] for a pair of ints: an entry of the blinds, or of the pot split_pot returns. */
  function PairAt(pair: (int, int), i: Seat): int {
    if i == 0 then pair.0 else pair.1
  }

  /** One seat's state; its id is its seat in the Table. */
  datatype Player = Player(cards: seq<Card>, stack: int, isDealer: bool, isAllIn: bool)

  /** The two players, players[0] and players[1]. */
  datatype Table = Table(p0: Player, p1: Player) {
    function At(s: Seat): Player {
      if s == 0 then p0 else p1
    }

    function With(s: Seat, p: Player): (t: Table)
      ensures t.At(s) == p && t.At(1 - s) == At(1 - s)
    {
      if s == 0 then this.(p0 := p) else this.(p1 := p)
    }
  }

  /** The seat the game code treats as dealer: players[0] if its flag is set, else players[1].
      The seat picked carries the dealer flag whenever some seat does; seat 0's flag is read
      first, and with no flag set the code falls back to seat 1. */
  function DealerSeat(t: Table): (s: Seat)
    ensures t.At(s).isDealer <==> t.p0.isDealer || t.p1.isDealer
    ensures t.p0.isDealer && t.p1.isDealer ==> s == 0
    ensures !t.p0.isDealer && !t.p1.isDealer ==> s == 1
  {
    if t.p0.isDealer then 0 else 1
  }

  /** cash: reset the stack to v; nothing else about the player changes. */
  function Cash(p: Player, v: int): (q: Player)
    ensures q.stack == v
    ensures q.cards == p.cards && q.isDealer == p.isDealer && q.isAllIn == p.isAllIn
  {
    p.(stack := v)
  }

  /** Cashing twice is cashing once with the second amount; cashing the current stack
      changes nothing. */
  lemma CashIdempotent(p: Player, v: int, w: int)
    ensures Cash(Cash(p, v), w) == Cash(p, w)
    ensures Cash(p, p.stack) == p
  {
  }

  /** Everything the strategy sees when it is asked to act. */
  datatype Context = Context(player: Player, board: seq<Card>, pot: int, log: Log, round: int,
                             opponentStack: int, blinds: (int, int))

  /** The external strategy: picks an action for the given state. */
  type Strategy = Context -> Action

  /** Whether either seat's last action in the preceding round was an all-in; the lookups
      fail as in the game code (KeyError for a missing round, IndexError for an empty list,
      seat 1 being looked at only when seat 0's last action is not an all-in). */
  function PrecedingAllIn(log: Log, round: int): (r: Result<bool>)
    requires round > 0
    ensures r == Ok(true) <==>
      round - 1 < |log| && |log[round - 1].seat0| > 0
      && (Last(log[round - 1].seat0).kind == AllIn
          || (|log[round - 1].seat1| > 0 && Last(log[round - 1].seat1).kind == AllIn))
    ensures r.Err? <==>
      round - 1 >= |log| || |log[round - 1].seat0| == 0
      || (Last(log[round - 1].seat0).kind != AllIn && |log[round - 1].seat1| == 0)
  {
    if round - 1 >= |log| then Err(KeyError)
    else
      var a := log[round - 1].seat0;
      var b := log[round - 1].seat1;
      if |a| == 0 then Err(IndexError)
      else if Last(a).kind == AllIn then Ok(true)
      else if |b| == 0 then Err(IndexError)
      else Ok(Last(b).kind == AllIn)
  }

  /** The chips handed back on a preflop action: blinds[is_dealer] in round 0, else none. */
  function PreflopRefund(p: Player, round: int, blinds: (int, int)): int {
    if round == 0 then PairAt(blinds, if p.isDealer then 1 else 0) else 0
  }

  /** Player.play: a player who is all in, or who acts after a round in which either seat's
      last action was an all-in, returns Action('null') with the stack untouched and the
      strategy not consulted. Otherwise the strategy's action is returned and the stack is
      debited by its amount, less blinds[is_dealer] on every preflop action. */
  function Play(p: Player, board: seq<Card>, pot: int, log: Log, round: int, opponentStack: int,
                blinds: (int, int), strategy: Strategy): (r: Result<(Action, Player)>)
    ensures p.isAllIn ==> r == Ok((NullAction, p))
    ensures !p.isAllIn && round > 0 && PrecedingAllIn(log, round) == Ok(true) ==> r == Ok((NullAction, p))
    ensures r.Err? <==> !p.isAllIn && round > 0 && PrecedingAllIn(log, round).Err?
    ensures !p.isAllIn && (round <= 0 || PrecedingAllIn(log, round) == Ok(false)) ==>
      r.Ok?
      && r.value.0 == strategy(Context(p, board, pot, log, round, opponentStack, blinds))
      && r.value.1.stack == p.stack - r.value.0.amount + PreflopRefund(p, round, blinds)
      && r.value.1.cards == p.cards && r.value.1.isDealer == p.isDealer && r.value.1.isAllIn == p.isAllIn
  {
    if p.isAllIn then Ok((NullAction, p))
    else if round > 0 && PrecedingAllIn(log, round).Err? then Err(PrecedingAllIn(log, round).error)
    else if round > 0 && PrecedingAllIn(log, round).value then Ok((NullAction, p))
    else
      var a := strategy(Context(p, board, pot, log, round, opponentStack, blinds));
      var refund := if round == 0 then PairAt(blinds, if p.isDealer then 1 else 0) else 0;
      Ok((a, p.(stack := p.stack - (a.amount - refund))))
  }

  /** A frozen player's play does not depend on the strategy at all. */
  lemma FrozenPlayIgnoresStrategy(p: Player, board: seq<Card>, pot: int, log: Log, round: int,
                                  opponentStack: int, blinds: (int, int), s1: Strategy, s2: Strategy)
    requires p.isAllIn || (round > 0 && PrecedingAllIn(log, round) == Ok(true))
    ensures Play(p, board, pot, log, round, opponentStack, blinds, s1)
         == Play(p, board, pot, log, round, opponentStack, blinds, s2)
  {
  }

  /** The freeze looks only at the immediately preceding round: after an all-in in round 0 and
      two null actions in round 1, a player without the all-in flag is asked again in round 2. */
  lemma FreezeLastsOneRound(p: Player, strategy: Strategy)
    requires !p.isAllIn
    ensures
      var log := [RoundLog([Action(AllIn, 200)], [Action(Call, 180)]),
                  RoundLog([NullAction], [NullAction])];
      Play(p, [], 0, log, 1, 0, BLINDS, strategy) == Ok((NullAction, p))
      && Play(p, [], 0, log, 2, 0, BLINDS, strategy).value.0
         == strategy(Context(p, [], 0, log, 2, 0, BLINDS))
  {
  }

  /** blinds: the seat DealerSeat picks pays the small blind BLINDS.0, the other seat the big
      blind BLINDS.1; only the two stacks change and they drop in total by the returned pot. */
  function PostBlinds(t: Table): (r: (Table, int))
    ensures r.1 == BLINDS.0 + BLINDS.1 == 30
    ensures r.0.At(DealerSeat(t)).stack == t.At(DealerSeat(t)).stack - BLINDS.0
    ensures r.0.At(1 - DealerSeat(t)).stack == t.At(1 - DealerSeat(t)).stack - BLINDS.1
    ensures (t.p0.stack + t.p1.stack) - (r.0.p0.stack + r.0.p1.stack) == r.1
    ensures forall s: Seat :: r.0.At(s) == t.At(s).(stack := r.0.At(s).stack)
  {
    var sb := DealerSeat(t);
    var bb := 1 - sb;
    var t1 := t.With(sb, t.At(sb).(stack := t.At(sb).stack - BLINDS.0));
    var t2 := t1.With(bb, t1.At(bb).(stack := t1.At(bb).stack - BLINDS.1));
    (t2, BLINDS.0 + BLINDS.1)
  }

  /** With the blinds posted, the dealer's first preflop action is refunded blinds[1]: a dealer
      who posted BLINDS.0 and then bets x ends with stack - BLINDS.0 - x + BLINDS.1. */
  lemma DealerPreflopRefund(t: Table, x: int, strategy: Strategy)
    requires t.p0.isDealer && !t.p0.isAllIn
    requires forall c :: strategy(c) == Action(Bet, x)
    ensures
      var (t1, pot) := PostBlinds(t);
      var r := Play(t1.p0, [], pot, [RoundLog([], [])], 0, t1.p1.stack, BLINDS, strategy);
      r.Ok? && r.value.1.stack == t.p0.stack - x + BLINDS.1 - BLINDS.0
  {
  }
}

=== FILE: pot.dfy ===
/** Splitting the pot: each seat's total contribution over a hand. */
module Pot {
  import opened Seqs
  import opened Actions
  import opened Players

  /** The amounts of a list of actions, in order. */
  function Amounts(acts: seq<Action>): (a: seq<int>)
    ensures |a| == |acts|
    ensures forall i :: 0 <= i < |acts| ==> a[i] == acts[i].amount
  {
    if |acts| == 0 then [] else Amounts(acts[..|acts| - 1]) + [acts[|acts| - 1].amount]
  }

  /** Every action one seat took over the whole log, round after round. */
  function SeatHistory(log: Log, s: Seat): (h: seq<Action>)
    ensures |log| == 0 ==> h == []
  {
    if |log| == 0 then [] else SeatHistory(log[..|log| - 1], s) + log[|log| - 1].Of(s)
  }

  /** The running pot entry of one seat after the loop has visited the given rounds. */
  function Contributed(log: Log, s: Seat, start: int): (c: int)
    decreases |log|
  {
    if |log| == 0 then start
    else
      var acts := log[|log| - 1].Of(s);
      Contributed(log[..|log| - 1], s, start) + Sum(Amounts(acts))
  }

  /** split_pot: pot[0] starts at blinds[1 - dealer] and pot[1] at blinds[dealer]; every
      action's amount is then added to its seat's entry. So the dealer is credited the big
      blind blinds.1, the other seat the small blind blinds.0, and each seat the sum of all
      its logged amounts over every round. */
  function SplitPot(log: Log, dealer: Seat, blinds: (int, int)): (r: (int, int))
    ensures PairAt(r, dealer) == blinds.1 + Total(log, dealer)
    ensures PairAt(r, 1 - dealer) == blinds.0 + Total(log, 1 - dealer)
  {
    var start0, start1 := PairAt(blinds, 1 - dealer), PairAt(blinds, dealer);
    ContributedIsTotal(log, 0, start0);
    ContributedIsTotal(log, 1, start1);
    (Contributed(log, 0, start0), Contributed(log, 1, start1))
  }

  /** Everything one seat put in over the hand: the sum of its logged amounts. */
  function Total(log: Log, s: Seat): int {
    Sum(Amounts(SeatHistory(log, s)))
  }

  /** Amounts distributes over concatenation. */
  lemma {:induction false} AmountsConcat(a: seq<Action>, b: seq<Action>)
    ensures Amounts(a + b) == Amounts(a) + Amounts(b)
  {
  }

  /** The round-by-round accumulation equals the start plus the sum over the whole history. */
  lemma {:induction false} ContributedIsTotal(log: Log, s: Seat, start: int)
    ensures Contributed(log, s, start) == start + Total(log, s)
    decreases |log|
  {
    if |log| > 0 {
      var prefix := log[..|log| - 1];
      var acts := log[|log| - 1].Of(s);
      ContributedIsTotal(prefix, s, start);
      AmountsConcat(SeatHistory(prefix, s), acts);
      SumConcat(Amounts(SeatHistory(prefix, s)), Amounts(acts));
    }
  }

  /** The four-round log of the example below: seat 0 calls 10, bets 20 and checks; seat 1
      checks, raises 50 and checks; nobody acts on the river. */
  const EXAMPLE_LOG: Log := [RoundLog([Action(Call, 10)], [Action(Check, 0)]),
                             RoundLog([Action(Bet, 20)], [Action(Raise, 50)]),
                             RoundLog([Action(Check, 0)], [Action(Check, 0)]),
                             RoundLog([], [])]

  lemma ExampleHistories()
    ensures SeatHistory(EXAMPLE_LOG, 0) == [Action(Call, 10), Action(Bet, 20), Action(Check, 0)]
    ensures SeatHistory(EXAMPLE_LOG, 1) == [Action(Check, 0), Action(Raise, 50), Action(Check, 0)]
  {
    var log := EXAMPLE_LOG;
    assert log[..3][..2][..1][..0] == [];
    assert log[..3][..2][..1] == log[..1];
    assert log[..3][..2] == log[..2];
    assert SeatHistory(log[..1], 0) == [Action(Call, 10)];
    assert SeatHistory(log[..1], 1) == [Action(Check, 0)];
    assert SeatHistory(log[..2], 0) == [Action(Call, 10), Action(Bet, 20)];
    assert SeatHistory(log[..2], 1) == [Action(Check, 0), Action(Raise, 50)];
  }

  lemma SumOfThreeActions(a: Action, b: Action, c: Action)
    ensures Sum(Amounts([a, b, c])) == a.amount + b.amount + c.amount
  {
    var xs := Amounts([a, b, c]);
    assert xs == [a.amount, b.amount, c.amount];
    assert xs[..2] == [a.amount, b.amount];
    assert xs[..2][..1] == [a.amount];
    assert xs[..2][..1][..0] == [];
    assert Sum(xs[..2][..1]) == a.amount;
    assert Sum(xs[..2]) == a.amount + b.amount;
  }

  /** With dealer 1, blinds (10, 20) and the seats' actions summing to 30 and 50, split_pot
      gives (40, 70): seat 0 gets the small blind and seat 1, the dealer, the big blind. */
  lemma SplitPotExample()
    ensures SplitPot(EXAMPLE_LOG, 1, (10, 20)) == (40, 70)
  {
    ExampleHistories();
    SumOfThreeActions(Action(Call, 10), Action(Bet, 20), Action(Check, 0));
    SumOfThreeActions(Action(Check, 0), Action(Raise, 50), Action(Check, 0));
  }

  /** The two blind conventions disagree: blinds charges the dealer the small blind, while
      split_pot credits the dealer the big blind. */
  lemma BlindConventionsDiffer(t: Table, log: Log)
    ensures
      var d := DealerSeat(t);
      var r := SplitPot(log, d, BLINDS);
      && t.At(d).stack - PostBlinds(t).0.At(d).stack == BLINDS.0
      && PairAt(r, d) - Total(log, d) == BLINDS.1
  {
  }
}

=== FILE: seqs.dfy ===
/** Sequence helpers standing in for the Python built-ins the game code uses:
    Counter, list.sort(reverse=True), sum and slicing. */
module Seqs {

  /** How often x occurs in xs (Counter(xs)[x]). */
  function Count<T(==)>(xs: seq<T>, x: T): (n: nat)
    ensures n == multiset(xs)[x]
  {
    if |xs| == 0 then 0
    else
      assert xs == xs[..|xs| - 1] + [xs[|xs| - 1]];
      Count(xs[..|xs| - 1], x) + (if xs[|xs| - 1] == x then 1 else 0)
  }

  /** No element occurs twice. */
  predicate Unique<T(==)>(xs: seq<T>) {
    forall i, j :: 0 <= i < j < |xs| ==> xs[i] != xs[j]
  }

  /** A sequence without repeats holds each element at most once. */
  lemma {:induction false} UniqueCountsAtMostOne<T>(xs: seq<T>, x: T)
    requires Unique(xs)
    ensures Count(xs, x) <= 1
  {
    if |xs| > 0 {
      var prefix := xs[..|xs| - 1];
      assert Unique(prefix) by {
        forall i, j | 0 <= i < j < |prefix| ensures prefix[i] != prefix[j] {
          assert prefix[i] == xs[i] && prefix[j] == xs[j];
        }
      }
      UniqueCountsAtMostOne(prefix, x);
      if xs[|xs| - 1] == x {
        assert x !in prefix by {
          forall i | 0 <= i < |prefix| ensures prefix[i] != x {
            assert prefix[i] == xs[i];
          }
        }
        assert multiset(prefix)[x] == 0;
      }
    }
  }

  /** Appending y adds one occurrence of y and nothing else. */
  lemma MultisetSnoc<T>(xs: seq<T>, y: T, x: T)
    ensures multiset(xs + [y])[x] == multiset(xs)[x] + (if y == x then 1 else 0)
  {
  }

  /** Three distinct elements occur at most |xs| times together. */
  lemma {:induction false} ThreeCountsFit<T>(xs: seq<T>, x: T, y: T, z: T)
    requires x != y && y != z && x != z
    ensures Count(xs, x) + Count(xs, y) + Count(xs, z) <= |xs|
  {
    if |xs| > 0 {
      ThreeCountsFit(xs[..|xs| - 1], x, y, z);
    }
  }

  /** The distinct elements of xs in order of first appearance (the key order of Counter(xs)). */
  function Distinct<T(==,!new)>(xs: seq<T>): (d: seq<T>)
    ensures forall x :: x in d <==> x in xs
    ensures Unique(d)
    ensures |xs| > 0 ==> |d| > 0
  {
    if |xs| == 0 then []
    else
      var d := Distinct(xs[..|xs| - 1]);
      assert xs == xs[..|xs| - 1] + [xs[|xs| - 1]];
      if xs[|xs| - 1] in d then d else d + [xs[|xs| - 1]]
  }

  /** Where x first occurs in xs. */
  function FirstIndex<T(==)>(xs: seq<T>, x: T): (k: nat)
    requires x in xs
    ensures k < |xs| && xs[k] == x && x !in xs[..k]
  {
    if xs[0] == x then 0
    else
      var k := FirstIndex(xs[1..], x) + 1;
      assert xs[..k] == [xs[0]] + xs[1..][..k - 1];
      k
  }

  /** Appending an element leaves the first occurrence of everything already present alone. */
  lemma {:induction false} FirstIndexSnoc<T>(xs: seq<T>, y: T, x: T)
    requires x in xs
    ensures FirstIndex(xs + [y], x) == FirstIndex(xs, x)
  {
    if xs[0] != x {
      assert (xs + [y])[1..] == xs[1..] + [y];
      FirstIndexSnoc(xs[1..], y, x);
    }
  }

  /** Counter's keys come in order of first appearance: Distinct lists the elements by
      increasing first index. */
  lemma {:induction false} DistinctInFirstAppearanceOrder<T(!new)>(xs: seq<T>)
    ensures forall i, j :: 0 <= i < j < |Distinct(xs)| ==>
      FirstIndex(xs, Distinct(xs)[i]) < FirstIndex(xs, Distinct(xs)[j])
  {
    if |xs| > 0 {
      var p, y := xs[..|xs| - 1], xs[|xs| - 1];
      assert xs == p + [y];
      DistinctInFirstAppearanceOrder(p);
      var dp := Distinct(p);
      var d := Distinct(xs);
      forall i | 0 <= i < |dp| ensures FirstIndex(xs, dp[i]) == FirstIndex(p, dp[i]) {
        assert dp[i] in dp;
        FirstIndexSnoc(p, y, dp[i]);
      }
      if y !in dp {
        assert d == dp + [y];
        assert FirstIndex(xs, y) == |p|;
        forall i, j | 0 <= i < j < |d| ensures FirstIndex(xs, d[i]) < FirstIndex(xs, d[j]) {
          assert d[i] == dp[i];
          if j < |dp| { assert d[j] == dp[j]; }
        }
      }
    }
  }

  /** The keys of Counter(xs), taken from ks, whose count is exactly n, in the order of ks. */
  function KeysWithCount<T(==,!new)>(ks: seq<T>, xs: seq<T>, n: nat): (r: seq<T>)
    ensures forall x :: x in r <==> x in ks && Count(xs, x) == n
    ensures |r| <= |ks|
    ensures Unique(ks) ==> Unique(r)
  {
    if |ks| == 0 then []
    else
      var rest := KeysWithCount(ks[1..], xs, n);
      assert ks == [ks[0]] + ks[1..];
      assert Unique(ks) ==> Unique(ks[1..]) && ks[0] !in ks[1..] by {
        if Unique(ks) {
          forall i, j | 0 <= i < j < |ks| - 1 ensures ks[1..][i] != ks[1..][j] {
            assert ks[1..][i] == ks[i + 1] && ks[1..][j] == ks[j + 1];
          }
          forall i | 0 <= i < |ks| - 1 ensures ks[1..][i] != ks[0] {
            assert ks[1..][i] == ks[i + 1];
          }
        }
      }
      if Count(xs, ks[0]) == n then
        assert Unique(ks) ==> Unique([ks[0]] + rest) by {
          if Unique(ks) {
            var r := [ks[0]] + rest;
            forall i, j | 0 <= i < j < |r| ensures r[i] != r[j] {
              assert r[j] == rest[j - 1];
              if i > 0 { assert r[i] == rest[i - 1]; } else { assert rest[j - 1] in rest; }
            }
          }
        }
        [ks[0]] + rest
      else rest
  }

  /** Every element of r is in ks, and they come in the order of their first occurrence in ks. */
  predicate InKeyOrder<T(==)>(r: seq<T>, ks: seq<T>) {
    && (forall i :: 0 <= i < |r| ==> r[i] in ks)
    && (forall i, j :: 0 <= i < j < |r| ==> FirstIndex(ks, r[i]) < FirstIndex(ks, r[j]))
  }

  /** The keys KeysWithCount keeps come in the order they have in ks. */
  lemma {:induction false} KeysWithCountOrder<T(!new)>(ks: seq<T>, xs: seq<T>, n: nat)
    requires Unique(ks)
    ensures InKeyOrder(KeysWithCount(ks, xs, n), ks)
  {
    if |ks| > 0 {
      var tail := ks[1..];
      assert ks == [ks[0]] + tail;
      assert Unique(tail) && ks[0] !in tail by {
        forall i, j | 0 <= i < j < |tail| ensures tail[i] != tail[j] {
          assert tail[i] == ks[i + 1] && tail[j] == ks[j + 1];
        }
        forall i | 0 <= i < |tail| ensures tail[i] != ks[0] {
          assert tail[i] == ks[i + 1];
        }
      }
      KeysWithCountOrder(tail, xs, n);
      var rest := KeysWithCount(tail, xs, n);
      InKeyOrderCons(ks[0], tail, rest);
    }
  }

  /** Putting a new key k in front of ks keeps a key-ordered r key-ordered, also with k in
      front of r. */
  lemma InKeyOrderCons<T>(k: T, tail: seq<T>, r: seq<T>)
    requires InKeyOrder(r, tail) && k !in tail
    requires forall x :: x in r ==> x in tail
    ensures InKeyOrder(r, [k] + tail)
    ensures InKeyOrder([k] + r, [k] + tail)
  {
    var ks := [k] + tail;
    assert ks[1..] == tail;
    forall x | x in tail ensures x in ks && FirstIndex(ks, x) == FirstIndex(tail, x) + 1 {
    }
    forall i | 0 <= i < |r| ensures r[i] in tail {
      assert r[i] in r;
    }
    var r' := [k] + r;
    forall i | 0 <= i < |r'| ensures r'[i] in ks {
      if i > 0 { assert r'[i] == r[i - 1]; }
    }
    forall i, j | 0 <= i < j < |r'| ensures FirstIndex(ks, r'[i]) < FirstIndex(ks, r'[j]) {
      assert r'[j] == r[j - 1];
      if i > 0 { assert r'[i] == r[i - 1]; }
    }
  }

  /** Order among Counter's keys is order of first appearance in xs. */
  lemma DistinctKeyOrder<T(!new)>(r: seq<T>, xs: seq<T>)
    requires InKeyOrder(r, Distinct(xs))
    ensures InKeyOrder(r, xs)
  {
    var d := Distinct(xs);
    DistinctInFirstAppearanceOrder(xs);
    forall i | 0 <= i < |r| ensures r[i] in xs {
      assert r[i] in d;
    }
    forall i, j | 0 <= i < j < |r| ensures FirstIndex(xs, r[i]) < FirstIndex(xs, r[j]) {
      var x, y := r[i], r[j];
      assert x in d && y in d;
      var a, b := FirstIndex(d, x), FirstIndex(d, y);
      assert a < b;
      assert FirstIndex(xs, d[a]) < FirstIndex(xs, d[b]);
    }
  }

  /** The elements of xs whose count in all is in the range lo..hi, order kept. */
  function FilterByCount(xs: seq<int>, all: seq<int>, lo: nat, hi: nat): (r: seq<int>)
    ensures forall x :: x in r <==> x in xs && lo <= Count(all, x) <= hi
    ensures |r| <= |xs|
    ensures IsDescending(xs) ==> IsDescending(r)
  {
    if |xs| == 0 then []
    else
      var rest := FilterByCount(xs[1..], all, lo, hi);
      assert xs == [xs[0]] + xs[1..];
      assert IsDescending(xs) ==> forall k :: 0 <= k < |rest| ==> xs[0] >= rest[k] by {
        if IsDescending(xs) {
          forall k | 0 <= k < |rest| ensures xs[0] >= rest[k] {
            assert rest[k] in xs[1..];
            var j :| 0 <= j < |xs[1..]| && xs[1..][j] == rest[k];
            assert xs[1 + j] == rest[k];
          }
        }
      }
      if lo <= Count(all, xs[0]) <= hi then [xs[0]] + rest else rest
  }

  /** The filter keeps every occurrence of a value whose count is in range, and drops every
      occurrence of the others. */
  lemma {:induction false} FilterByCountMultiset(xs: seq<int>, all: seq<int>, lo: nat, hi: nat, x: int)
    ensures multiset(FilterByCount(xs, all, lo, hi))[x]
      == if lo <= Count(all, x) <= hi then multiset(xs)[x] else 0
  {
    if |xs| > 0 {
      FilterByCountMultiset(xs[1..], all, lo, hi, x);
      assert xs == [xs[0]] + xs[1..];
      MultisetCons(xs[0], xs[1..], x);
      MultisetCons(xs[0], FilterByCount(xs[1..], all, lo, hi), x);
    }
  }

  /** Putting y in front adds one occurrence of y and nothing else. */
  lemma MultisetCons<T>(y: T, xs: seq<T>, x: T)
    ensures multiset([y] + xs)[x] == multiset(xs)[x] + (if y == x then 1 else 0)
  {
  }

  /** xs is sorted from largest to smallest. */
  predicate IsDescending(xs: seq<int>) {
    forall i, j :: 0 <= i < j < |xs| ==> xs[i] >= xs[j]
  }

  /** Putting an element no smaller than the head in front keeps a sequence descending. */
  lemma ConsDescending(y: int, ys: seq<int>)
    requires IsDescending(ys)
    requires |ys| == 0 || y >= ys[0]
    ensures IsDescending([y] + ys)
  {
    var r := [y] + ys;
    forall i, j | 0 <= i < j < |r| ensures r[i] >= r[j] {
      assert r[j] == ys[j - 1];
      if i > 0 {
        assert r[i] == ys[i - 1];
      } else if j > 1 {
        assert ys[0] >= ys[j - 1];
      }
    }
  }

  lemma TailDescending(xs: seq<int>)
    requires IsDescending(xs) && |xs| > 0
    ensures IsDescending(xs[1..])
    ensures forall k :: 0 <= k < |xs| - 1 ==> xs[0] >= xs[1..][k]
  {
    forall i, j | 0 <= i < j < |xs| - 1 ensures xs[1..][i] >= xs[1..][j] {
      assert xs[1..][i] == xs[i + 1] && xs[1..][j] == xs[j + 1];
    }
    forall k | 0 <= k < |xs| - 1 ensures xs[0] >= xs[1..][k] {
      assert xs[1..][k] == xs[k + 1];
    }
  }

  /** Insert x into a descending sequence, keeping it descending. */
  function InsertDesc(x: int, xs: seq<int>): (r: seq<int>)
    requires IsDescending(xs)
    ensures |r| == |xs| + 1
    ensures IsDescending(r)
    ensures multiset(r) == multiset(xs) + multiset{x}
  {
    if |xs| == 0 || x >= xs[0] then
      ConsDescending(x, xs);
      [x] + xs
    else
      TailDescending(xs);
      var tail := xs[1..];
      var rest := InsertDesc(x, tail);
      assert xs == [xs[0]] + tail;
      assert xs[0] >= rest[0] by {
        assert rest[0] in multiset(rest);
        if rest[0] != x {
          assert rest[0] in multiset(tail);
          var k :| 0 <= k < |tail| && tail[k] == rest[0];
        }
      }
      ConsDescending(xs[0], rest);
      [xs[0]] + rest
  }

  /** xs sorted in reverse (list.sort(reverse=True)). */
  function SortDesc(xs: seq<int>): (r: seq<int>)
    ensures IsDescending(r)
    ensures multiset(r) == multiset(xs)
    ensures |r| == |xs|
  {
    if |xs| == 0 then []
    else
      assert xs == xs[..|xs| - 1] + [xs[|xs| - 1]];
      InsertDesc(xs[|xs| - 1], SortDesc(xs[..|xs| - 1]))
  }

  /** Python's xs[:k] for k >= 0: the first k elements, or all of them when there are fewer. */
  function Take<T>(xs: seq<T>, k: nat): (r: seq<T>)
    ensures |r| <= k && |r| <= |xs|
    ensures r <= xs
    ensures |xs| >= k ==> |r| == k
  {
    if |xs| <= k then xs else xs[..k]
  }

  /** sum(xs). */
  function Sum(xs: seq<int>): int {
    if |xs| == 0 then 0 else Sum(xs[..|xs| - 1]) + xs[|xs| - 1]
  }

  /** A sum of values that all lie in lo..hi lies in |xs|*lo .. |xs|*hi. */
  lemma {:induction false} SumBounds(xs: seq<int>, lo: int, hi: int)
    requires forall i :: 0 <= i < |xs| ==> lo <= xs[i] <= hi
    ensures |xs| * lo <= Sum(xs) <= |xs| * hi
  {
    if |xs| > 0 {
      SumBounds(xs[..|xs| - 1], lo, hi);
      assert (|xs| - 1) * lo + lo == |xs| * lo;
      assert (|xs| - 1) * hi + hi == |xs| * hi;
    }
  }

  /** The sum of a concatenation is the sum of the parts. */
  lemma {:induction false} SumConcat(xs: seq<int>, ys: seq<int>)
    ensures Sum(xs + ys) == Sum(xs) + Sum(ys)
  {
    if |ys| > 0 {
      assert (xs + ys)[..|xs + ys| - 1] == xs + ys[..|ys| - 1];
      SumConcat(xs, ys[..|ys| - 1]);
    } else {
      assert xs + ys == xs;
    }
  }

  /** The last element (Python's xs[-1]). */
  function Last<T>(xs: seq<T>): T
    requires |xs| > 0
  {
    xs[|xs| - 1]
  }
}

=== FILE: straights.dfy ===
/** Straight detection (is_straight). */
module Straights {

  /** Every value of the run low, low + 1, ..., low + length - 1 occurs in values. */
  ghost predicate RunIn(values: seq<int>, low: int, length: int) {
    forall x :: low <= x < low + length ==> x in values
  }

  /** set(values), with 0 added when an ace (13) is among them. */
  function HandSet(values: seq<int>): (h: set<int>)
    ensures forall x :: x in h <==> x in values || (x == 0 && 13 in values)
  {
    var h := set x | x in values;
    if 13 in h then h + {0} else h
  }

  /** range(lo, hi). */
  function Range(lo: int, hi: int): (r: seq<int>)
    ensures forall x :: x in r <==> lo <= x < hi
  {
    if hi <= lo then []
    else
      var r := seq(hi - lo, i requires 0 <= i < hi - lo => lo + i);
      forall x | lo <= x < hi ensures x in r {
        assert r[x - lo] == x;
      }
      r
  }

  /** set(range(low, low + length)). */
  function Run(low: int, length: int): (s: set<int>)
    ensures forall x :: x in s <==> low <= x < low + length
  {
    var xs := Range(low, low + length);
    set x | x in xs
  }

  /** The scan of is_straight from the given low end downwards to 1: the first low whose run
      lies in the hand set gives low + length - 1; none gives 0. */
  function ScanFrom(hand: set<int>, length: int, low: int): int
    decreases low
  {
    if low < 1 then 0
    else if Run(low, length) <= hand then low + length - 1
    else ScanFrom(hand, length, low - 1)
  }

  /** What ScanFrom finds, stated on the values themselves (the ace's 0 never matters, since
      every scanned run starts at 1 or above). */
  lemma {:induction false} ScanFromSpec(values: seq<int>, length: int, top: int)
    ensures
      var r := ScanFrom(HandSet(values), length, top);
      || (r == 0 && forall low :: 1 <= low <= top ==> !RunIn(values, low, length))
      || (exists low :: 1 <= low <= top && RunIn(values, low, length) && r == low + length - 1
           && forall l :: low < l <= top ==> !RunIn(values, l, length))
    decreases top
  {
    if top >= 1 {
      RunInHandSet(values, top, length);
      if !(Run(top, length) <= HandSet(values)) {
        ScanFromSpec(values, length, top - 1);
      }
    }
  }

  /** For low >= 1 the run lies in the hand set exactly when it lies in the values. */
  lemma RunInHandSet(values: seq<int>, low: int, length: int)
    requires low >= 1
    ensures Run(low, length) <= HandSet(values) <==> RunIn(values, low, length)
  {
    if RunIn(values, low, length) {
      forall x | x in Run(low, length) ensures x in HandSet(values) {
        assert x in values;
      }
    }
    if Run(low, length) <= HandSet(values) {
      forall x | low <= x < low + length ensures x in values {
        assert x in Run(low, length);
      }
    }
  }

  /** is_straight(values, length): low + length - 1 for the largest low in 10..1 whose whole
      run occurs among the values, else 0. */
  function IsStraight(values: seq<int>, length: int): (r: int)
    ensures
      || (r == 0 && forall low :: 1 <= low <= 10 ==> !RunIn(values, low, length))
      || (exists low :: 1 <= low <= 10 && RunIn(values, low, length) && r == low + length - 1
           && forall l :: low < l <= 10 ==> !RunIn(values, l, length))
  {
    ScanFromSpec(values, length, 10);
    ScanFrom(HandSet(values), length, 10)
  }

  /** For card values (1..13) and a positive length, a straight's top value is itself one of
      the values, so it is a card value too. */
  lemma StraightTopIsValue(values: seq<int>, length: int)
    requires length >= 1
    requires forall i :: 0 <= i < |values| ==> 1 <= values[i] <= 13
    ensures IsStraight(values, length) == 0 || IsStraight(values, length) in values
    ensures 0 <= IsStraight(values, length) <= 13
  {
    var r := IsStraight(values, length);
    if r != 0 {
      var low :| 1 <= low <= 10 && RunIn(values, low, length) && r == low + length - 1;
      assert low <= r < low + length;
    }
  }

  /** Examples: 2-3-4-5-6 (values 1..5) is a straight with top 5, spaced values are none, and
      the ace-low wheel A-2-3-4-5 (values 13, 1, 2, 3, 4) is not found. */
  lemma StraightExamples()
    ensures IsStraight([1, 2, 3, 4, 5], 5) == 5
    ensures IsStraight([2, 4, 6, 8, 10], 5) == 0
    ensures IsStraight([13, 1, 2, 3, 4], 5) == 0
  {
    var a := [1, 2, 3, 4, 5];
    assert RunIn(a, 1, 5);
    forall l | 1 < l <= 10 ensures !RunIn(a, l, 5) {
      assert l + 4 !in a;
    }
    var b := [2, 4, 6, 8, 10];
    forall l | 1 <= l <= 10 ensures !RunIn(b, l, 5) {
      if l % 2 == 1 { assert l !in b; } else { assert l + 1 !in b; }
    }
    var w := [13, 1, 2, 3, 4];
    forall l | 1 <= l <= 10 ensures !RunIn(w, l, 5) {
      if l <= 5 { assert 5 !in w; } else { assert l !in w; }
    }
  }
}
